=== FILE: README.md ===
# Optimizers, visualized: a Dafny model of the trajectory engine

This project models the numerical core of a small Python repository. The repository draws the
paths that gradient-descent optimizers take over test surfaces. The model covers:

- the closed-form test surfaces of `spaces/threeD.py`: `Surface.get_z_at`, `get_gx_at` and
  `get_gy_at` for `himmelblau`, `parabolic`, `matyas` and `saddle`;
- the four optimizers of `State` in the same file:
  - `run_gd`, with standard and with Nesterov momentum;
  - `run_adagrad`;
  - `run_rmsprop`;
  - `run_adam`.

  Each returns the history lists of its run;
- the one-variable descent on the parabola `theta * theta`:
  - `SGDOneVariable.converge` and `store_iterations` of `optimizers/sgd.py`, and their copy in
    `spaces/twoD.py`;
  - the learning-rate-decay variant `SGDOneVariableLRDecay` of `spaces/twoD.py`.

Python numbers are modelled as exact reals. The exceptions a run raises on exact arithmetic
each become an `Exceptions.Error` inside a `Wrappers.Result`:

- `UnboundLocalError`: the history lists, the `iters` dictionary or the rate `lrd` is read
  before it was ever assigned. This happens when the loop never runs, or when `tau` is negative.
- `TypeError`: arithmetic on the `None` that the surface formulas return for an unknown name.
- `ZeroDivisionError`: a division by zero.
- `ValueError`: `math.sqrt` of a negative number.

`math.sqrt` is a parameter `sqrt: real -> real` of the AdaGrad, RMSProp and Adam runs. Properties that need it assume
only `Numeric.SqrtLike`: `sqrt` is non-negative on non-negative arguments and zero exactly at zero.

Modules and what each one holds:

- `Surfaces`: the four formulas and the lookup by name.
- `History`: a `State` (start point, surface name, iteration count) and the history lists.
- `Trajectory`: the shared loop skeleton. It iterates an update a fixed number of times; the
  failing variant stops at the first exception.
- `Momentum`, `AdaGrad`, `RmsProp`, `Adam`: each optimizer's update, run and lemmas.
- `Adaptive`: the bookkeeping shared by AdaGrad and RMSProp, namely the state with its
  accumulators, the seven history lists, and the facts that connect them.
- `Sgd`: the plain one-variable descent.
- `TwoD`: the decay schedule.
- `Exceptions`: the Python exceptions a run can raise.
- `Numeric` and `Wrappers`: Python's division, square root and power, and the
  `Option`/`Result` types.

Where the code and its documentation disagree, the model follows the code:

- Adam divides the first moments by `1 - rho1` and the second moments by `2 - rho2`. These are
  fixed constants. The standard bias correction divides by `1 - rho^t`. The time step `t` is
  counted but never used by the update, and the `alpha` argument is never used.
- The Himmelblau x-gradient formula has the terms `-4xy` and `+4xy`, which cancel. It falls short
  of the true partial derivative by `4xy + 2y^2`. The model keeps the formula as written.
  `Surfaces.HimmelblauGradients` states the difference, and `Surfaces.HimmelblauPartialX`
  states it against the height.
- An iteration count below 1 does not give a one-record history. The history lists are bound
  only inside the loop, so the run raises `UnboundLocalError`.
- An unknown surface name is not rejected up front. It raises `TypeError` at the first update.
- The decay schedule does not end at `epsilon_tau`. The rate is reassigned only while
  `k < tau`, so from pass `tau - 1` on it stays at `epsilon_tau + (lr - epsilon_tau) / tau`.
- The decay constructor ignores its `tau` argument and always sets `tau = 20`.

## Model

| member | source | states |
|---|---|---|
| Numeric.Divide | spaces/threeD.py:186-187 | a division succeeds exactly when the divisor is non-zero, and then its quotient times the divisor is the dividend |
| Numeric.Sqrt | spaces/threeD.py:261-262 | `math.sqrt` raises exactly on a negative argument; for a `SqrtLike` root the result is non-negative and zero exactly at zero |
| Surfaces.Lookup | spaces/threeD.py:14-42 | a name selects the surface whose name it is, and `None` exactly when no surface has that name |
| Surfaces.LookupName | spaces/threeD.py:14-42 | each surface's own name selects that surface |
| Surfaces.ZAt | spaces/threeD.py:14-22 | `get_z_at` falls through to `None` exactly for an unknown name, and otherwise gives that surface's height |
| Surfaces.GxAt | spaces/threeD.py:24-32 | `get_gx_at` falls through to `None` exactly for an unknown name, and otherwise gives that surface's x-gradient formula |
| Surfaces.GyAt | spaces/threeD.py:34-42 | `get_gy_at` falls through to `None` exactly for an unknown name, and otherwise gives that surface's y-gradient formula |
| Surfaces.PartialX | spaces/threeD.py:17-32 | on parabolic, matyas and saddle the x-gradient formula is the linear coefficient of the height along x, so it is the partial derivative |
| Surfaces.PartialY | spaces/threeD.py:17-42 | on parabolic, matyas and saddle the y-gradient formula is the partial derivative of the height in y |
| Surfaces.HimmelblauGradients | spaces/threeD.py:15-36 | the Himmelblau y-gradient is the chain-rule derivative of its height; the x-gradient is that derivative minus `4xy + 2y^2` |
| Surfaces.HimmelblauPartialX | spaces/threeD.py:15-28 | on Himmelblau the linear coefficient of the height along x is the x-gradient formula plus `4xy + 2y^2`, so that formula is not the partial derivative wherever `4xy + 2y^2` is not zero |
| Surfaces.HimmelblauPartialY | spaces/threeD.py:15-36 | on Himmelblau the y-gradient formula is the linear coefficient of the height along y, the rest of the change being of order h*h and higher, so it is the partial derivative |
| Surfaces.ParabolicMinimum | spaces/threeD.py:17-38 | the parabolic bowl is non-negative, is zero at the origin, and has a zero gradient exactly at the origin |
| History.Record | spaces/threeD.py:128-139 | the three history lists hold one entry per state of the run: its x, its y and the surface height there |
| History.Diagnose | spaces/threeD.py:172-201 | a diagnostic list starts with `None` and then holds the value of each updated state |
| Trajectory.Trace | spaces/threeD.py:80-131 | the states of a run: the start state, then one state per update, each the update of the one before |
| Trajectory.TraceOrFail | spaces/threeD.py:161-201 | a run whose updates can raise: on success, the start state and one state per update, each the successful update of the one before |
| Momentum.RunGd | spaces/threeD.py:58-139 | `run_gd` raises `UnboundLocalError` with no iteration and `TypeError` on an unknown surface; it succeeds exactly otherwise, and then records the start and one point per update with its height, the points following the momentum recurrence: the first moves by `-epsilon` times the gradient at the start, each later one by `alpha` times the previous displacement less `epsilon` times the gradient at the look-ahead point |
| Momentum.TraceMoves | spaces/threeD.py:76-131 | a trajectory that starts at rest and takes one momentum update per step has positions that follow the momentum recurrence |
| Momentum.StepFromRest | spaces/threeD.py:76-126 | from zero velocity, either kind of update moves straight against the gradient at the current point |
| Momentum.StepRecurs | spaces/threeD.py:104-125 | in two updates in a row, the second velocity is `alpha` times the first displacement less `epsilon` times the gradient at its look-ahead point |
| Momentum.StepWith | spaces/threeD.py:93-126 | an update whose gradients at the look-ahead point give the velocities `vx`, `vy` moves the point by exactly those velocities and keeps them |
| Momentum.Update | spaces/threeD.py:93-126 | the loop body as written, in its Nesterov and its standard branch, computes one momentum update of position and velocity |
| Momentum.RunGdLoop | spaces/threeD.py:76-139 | the loop of `run_gd`, calling the loop body once per pass and appending to the lists, returns what `RunGd` defines |
| Momentum.ZeroLearningRateStaysPut | spaces/threeD.py:104-125 | with `epsilon = 0` every recorded point is the start point, with either kind of momentum |
| Momentum.LookAheadAtRest | spaces/threeD.py:93-121 | from rest, the Nesterov update and the standard update coincide, for any gradient |
| Momentum.NesterovFirstStepAgrees | spaces/threeD.py:76-126 | the first two entries of every history list are the same with and without Nesterov |
| Momentum.NesterovWithoutMomentum | spaces/threeD.py:93-126 | with `alpha = 0`, the Nesterov and the standard runs are identical |
| Adaptive.BlendNonNegative | spaces/threeD.py:257-258 | a non-negative share of a non-negative past plus a non-negative share of a square is non-negative |
| Adaptive.ReportEntries | spaces/threeD.py:169-201 | the seven lists of a run hold one entry per state: positions at every index; updates and accumulators from index 1, after a `None` |
| Adaptive.ReportFollows | spaces/threeD.py:177-201 | if every update blends the accumulators with the squared gradient and moves by its recorded update, the reported lists show that at every index |
| Adaptive.ReportScales | spaces/threeD.py:185-201 | if every update computes its recorded update from its new accumulator and the gradient by one rule, the reported lists show that rule at every index |
| Adaptive.ReportDescends | spaces/threeD.py:185-199 | if every update moves against the gradient, each recorded update opposes the gradient at the previously recorded point |
| Adaptive.AccumulatesNonNegative | spaces/threeD.py:181-183 | accumulators that add a non-negative share of a square to a non-negative share of their past are non-negative at every index |
| Adaptive.AccumulatesMonotone | spaces/threeD.py:181-183 | accumulators that keep their whole past and add a square never decrease from one index to any later one |
| Adaptive.GrowsAt | spaces/threeD.py:181-183 | an accumulator that keeps its whole past and adds a square is at least its previous entry |
| AdaGrad.Scaled | spaces/threeD.py:186-187 | the per-coordinate update raises `ValueError` exactly on a negative accumulator and `ZeroDivisionError` exactly on a zero divisor `delta + sqrt(r)`, and succeeds otherwise |
| AdaGrad.ScaledValue | spaces/threeD.py:186-187 | an update that does not raise, times its divisor `delta + sqrt(r)`, is `-epsilon * g` |
| AdaGrad.ScaledOpposes | spaces/threeD.py:186-187 | with `epsilon > 0` and `delta >= 0`, an update `-(epsilon / (delta + sqrt(r))) * g` that does not raise is zero or of the opposite sign to `g` |
| AdaGrad.StepFollows | spaces/threeD.py:177-191 | a successful update adds the squared gradient to each accumulator, records the update `Scaled` gives for the new accumulator and that gradient, and moves the point by it |
| AdaGrad.StepDescends | spaces/threeD.py:185-191 | with `epsilon > 0` and `delta >= 0`, a successful update moves each coordinate against its gradient |
| AdaGrad.TraceFollows | spaces/threeD.py:161-201 | every update of a successful run adds the squared gradient at the point it starts from and records the `Scaled` update for it |
| AdaGrad.RunAdagrad | spaces/threeD.py:141-213 | the error cases, as for `run_gd`; on success each recorded accumulator is the previous one plus the squared gradient at the previous point, each recorded update is `-(epsilon / (delta + sqrt(r))) * g` for that accumulator `r` and gradient `g`, and each point is the previous one moved by its recorded update |
| AdaGrad.StepKeepsSquares | spaces/threeD.py:181-187 | from non-negative accumulators an update raises only a zero division, or yields non-negative accumulators |
| AdaGrad.StepSucceeds | spaces/threeD.py:181-187 | with `delta > 0` and non-negative accumulators an update never raises |
| AdaGrad.RaisesOnlyZeroDivision | spaces/threeD.py:158-201 | on a known surface with at least one iteration, the only exception a run can raise is a zero division |
| AdaGrad.Succeeds | spaces/threeD.py:151-201 | with `delta > 0` (the default is 1e-7), a run on a known surface with at least one iteration raises nothing |
| AdaGrad.Accumulators | spaces/threeD.py:181-201 | the recorded accumulators are non-negative and never decrease |
| AdaGrad.MovesAgainstGradient | spaces/threeD.py:177-199 | with `epsilon > 0` and `delta >= 0`, every recorded update is zero or opposes the gradient at the point it starts from |
| AdaGrad.StallsWithoutDelta | spaces/threeD.py:158-187 | with `delta = 0`, a start point of zero x-gradient divides by zero on the first update |
| AdaGrad.StepStalls | spaces/threeD.py:181-186 | with `delta = 0`, a fresh accumulator and a zero x-gradient, the update raises a zero division |
| RmsProp.Scaled | spaces/threeD.py:261-262 | the per-coordinate update raises `ValueError` exactly when `delta + r` is negative and `ZeroDivisionError` exactly when `sqrt(delta + r)` is zero, and succeeds otherwise |
| RmsProp.ScaledValue | spaces/threeD.py:261-262 | an update that does not raise, times its divisor `sqrt(delta + r)`, is `-epsilon * g` |
| RmsProp.ScaledOpposes | spaces/threeD.py:261-262 | with `epsilon > 0`, an update `-(epsilon / sqrt(delta + r)) * g` that does not raise is zero or opposes `g` |
| RmsProp.StepFollows | spaces/threeD.py:252-267 | a successful update sets each accumulator to `rho` times its old value plus `1 - rho` times the squared gradient, records the `Scaled` update for it, and moves by that update |
| RmsProp.StepDescends | spaces/threeD.py:260-266 | with `epsilon > 0`, a successful update moves each coordinate against its gradient |
| RmsProp.StepKeepsSquares | spaces/threeD.py:256-258 | with `0 <= rho <= 1`, non-negative accumulators stay non-negative |
| RmsProp.StepRaisesOnlyZeroDivision | spaces/threeD.py:252-262 | with `0 <= rho <= 1` and `delta >= 0`, an update raises only a zero division, and none at all when `delta > 0` |
| RmsProp.TraceFollows | spaces/threeD.py:236-276 | every update of a successful run blends each accumulator with the squared gradient at its starting point and records the `Scaled` update for it |
| RmsProp.RunRmsprop | spaces/threeD.py:215-288 | the error cases, as for `run_gd`; on success each recorded accumulator is `rho` times the previous plus `1 - rho` times the squared gradient at the previous point, each recorded update is `-(epsilon / sqrt(delta + r)) * g` for that accumulator and gradient, and each point moves by its recorded update |
| RmsProp.RaisesOnlyZeroDivision | spaces/threeD.py:233-276 | on a known surface with at least one iteration, `0 <= rho <= 1` and `delta >= 0`, a run raises at most a zero division, and nothing when `delta > 0` |
| RmsProp.Accumulators | spaces/threeD.py:256-276 | with `0 <= rho <= 1`, the recorded accumulators are non-negative |
| RmsProp.MovesAgainstGradient | spaces/threeD.py:252-274 | with `epsilon > 0`, every recorded update is zero or opposes the gradient at the point it starts from |
| RmsProp.StallsWithoutDelta | spaces/threeD.py:233-262 | with `delta = 0`, a start point of zero x-gradient divides by zero on the first update |
| RmsProp.NegativeDeltaRaises | spaces/threeD.py:233-262 | with `delta < 0`, a start point of zero x-gradient takes the square root of a negative number |
| RmsProp.StepStalls | spaces/threeD.py:256-261 | from a fresh accumulator at zero x-gradient, `delta = 0` divides by zero and `delta < 0` raises `ValueError` |
| Adam.RunAdam | spaces/threeD.py:290-371 | the error cases, as for `run_gd`; on success the three lists record the start and one point per update, each with its height |
| Adam.Scaled | spaces/threeD.py:352-353 | the per-coordinate update raises `ValueError` exactly on a negative corrected second moment and `ZeroDivisionError` exactly when `sqrt(v) + delta` is zero, and succeeds otherwise |
| Adam.ScaledValue | spaces/threeD.py:352-353 | an update that does not raise, times its divisor `sqrt(v) + delta`, is `-epsilon * m` for the corrected moments `m` and `v` |
| Adam.ScaledOpposes | spaces/threeD.py:352-353 | with `epsilon > 0` and `delta >= 0`, an update that does not raise is zero or of the sign opposite to the corrected first moment |
| Adam.StepAdvances | spaces/threeD.py:330-358 | a successful update blends each first moment as `rho1 * s + (1 - rho1) * g` and each second moment as `rho2 * r + (1 - rho2) * g * g`, counts the time step, and moves by `Scaled` of the first moment over `1 - rho1` and the second over `2 - rho2` |
| Adam.Updates | spaces/threeD.py:317-363 | a successful run records the positions of a trajectory from the start state in which every update advances the moments and moves as `StepAdvances` states |
| Adam.MovesAgainstMoment | spaces/threeD.py:336-358 | with `epsilon > 0` and `delta >= 0`, every recorded move is zero or opposes the corrected first moment of the update that made it |
| Adam.RecordsTrace | spaces/threeD.py:317-363 | the recorded points of a successful run are the positions of its trajectory |
| Adam.IgnoresAlpha | spaces/threeD.py:290-371 | the `alpha` argument has no effect on the run |
| Adam.StepIgnoresTime | spaces/threeD.py:333-353 | the update does not depend on the time step: from a state with any other `t` it raises the same way, or reaches the same state at time `t + 1` |
| Adam.StepCounts | spaces/threeD.py:314-333 | each successful update advances the time step by one |
| Adam.TimeCounts | spaces/threeD.py:314-333 | along a successful trajectory, the time step of state `i` is `i` |
| Adam.StepKeepsSquares | spaces/threeD.py:339-341 | with `0 <= rho2 <= 1`, non-negative second moments stay non-negative |
| Adam.SecondMomentsNonNegative | spaces/threeD.py:308-341 | with `0 <= rho2 <= 1`, every second moment along a successful trajectory is non-negative |
| Adam.StepRaisesOnlyZeroDivision | spaces/threeD.py:343-353 | with `rho1 != 1`, `0 <= rho2 <= 1` and `delta >= 0`, an update raises only a zero division, and none when `delta > 0` |
| Adam.RaisesOnlyZeroDivision | spaces/threeD.py:317-363 | with at least one iteration, `rho1 != 1`, `0 <= rho2 <= 1` and `delta >= 0`, a run on a known surface raises at most a zero division, and nothing when `delta > 0` |
| Adam.StepScalesXFirst | spaces/threeD.py:352-353 | the x update is computed before the y update, so when it raises, its error is the one the step reports |
| Adam.StepRhoOneRaises | spaces/threeD.py:343-345 | `rho1 = 1` makes the divisor `1 - rho1` zero, so the update raises |
| Adam.StepRhoTwoRaises | spaces/threeD.py:347-349 | `rho2 = 2` with `rho1 != 1` makes the divisor `2 - rho2` zero, so the update raises |
| Adam.ConstantDivisorsRaise | spaces/threeD.py:343-349 | on a known surface, a run with `rho1 = 1` or with `rho2 = 2` raises a zero division |
| Sgd.ShrinkClosed | optimizers/sgd.py:44-45 | `n` passes of `theta - lr * theta` multiply `theta` by `(1 - lr)^n` |
| Sgd.Converge | optimizers/sgd.py:43-46 | `converge(steps)` returns `theta * (1 - lr)^max(steps, 0)` and leaves that value in the object |
| Sgd.ConvergeLoop | spaces/twoD.py:45-48 | the loop as written, in this copy and in `optimizers/sgd.py`, computes what `Converge` states |
| Sgd.Values | optimizers/sgd.py:50-53 | `n` passes record `n` values, each one update `theta - lr * (2 * theta)` of the value before it, the first of the start value |
| Sgd.ValuesClosed | optimizers/sgd.py:50-53 | the k-th recorded value is `theta * (1 - 2 * lr)^(k + 1)` |
| Sgd.ValueAt | optimizers/sgd.py:50-53 | a single recorded value, the k-th, is `theta * (1 - 2 * lr)^(k + 1)` |
| Sgd.ValuesAppend | optimizers/sgd.py:50-53 | `n + m` updates record the `n` values, then the `m` values that follow from where those ended |
| Sgd.StoreIterations | optimizers/sgd.py:48-59 | `store_iterations(steps)` returns the inputs unchanged and `max(steps, 0)` values, the k-th being `theta * (1 - 2 * lr)^(k + 1)`; the object keeps the last value, or its `theta` when no pass ran |
| Sgd.StoreIterationsLoop | spaces/twoD.py:50-61 | the loop as written, in this copy and in `optimizers/sgd.py`, appends one value per pass and returns what `StoreIterations` states |
| Sgd.ContinuesFromLast | optimizers/sgd.py:48-59 | a second call continues from where the first one left the object, and together they record one run of the summed length |
| Sgd.ZeroLearningRate | optimizers/sgd.py:43-59 | with `lr = 0` every recorded value is `theta`, and neither method changes the object |
| Sgd.MagnitudeNonIncreasing | optimizers/sgd.py:50-53 | with `0 <= lr <= 1` the magnitude of `theta` never grows from one recorded value to the next |
| Sgd.NextShrinks | optimizers/sgd.py:51-52 | with `0 <= lr <= 1` one update multiplies `theta` by `1 - 2 * lr` and does not increase its magnitude |
| TwoD.NewLrDecay | spaces/twoD.py:73-77 | the constructor keeps `theta`, `lr` and the inputs and always sets `tau = 20`; with `0 <= decay_ratio <= 1` and `lr >= 0` the target rate lies in `[0, lr]`, and with `decay_ratio = 1` it is `lr` |
| TwoD.IgnoresTau | spaces/twoD.py:73-75 | two constructions that differ only in the `tau` argument build the same object |
| TwoD.RateStartsAtLr | spaces/twoD.py:86-92 | the first pass uses the initial rate `lr` |
| TwoD.RateFrozen | spaces/twoD.py:88-95 | from pass `tau - 1` on, the rate is `epsilon_tau + (lr - epsilon_tau) / tau`, which equals `epsilon_tau` only when `lr` does |
| TwoD.InterpolateMonotone | spaces/twoD.py:91 | going further from `lr` towards a smaller `epsilon_tau` keeps the rate between the two and never raises it |
| TwoD.RateBetween | spaces/twoD.py:86-92 | every rate lies between `epsilon_tau` and `lr`, whichever of the two is the larger |
| TwoD.RateNonIncreasing | spaces/twoD.py:86-95 | with `epsilon_tau <= lr`, the rate of a later pass is never above that of an earlier one |
| TwoD.RateConstant | spaces/twoD.py:91 | with `epsilon_tau = lr`, the rate is `lr` on every pass |
| TwoD.PassRate | spaces/twoD.py:88-95 | with `tau > 0` and the previous pass's rate in `lrd`, a pass uses the scheduled rate and moves `theta` by one update at that rate |
| TwoD.Passes | spaces/twoD.py:86-96 | a run of passes succeeds exactly when there is no pass, or `tau` is non-zero and the first pass either lies before `tau` or has a rate in hand; otherwise `tau = 0` raises `ZeroDivisionError` and a missing rate `UnboundLocalError`; on success one value per pass |
| TwoD.PassesFollowRate | spaces/twoD.py:86-96 | with `tau > 0` the passes succeed, and each recorded value is one update of its predecessor at the scheduled rate |
| TwoD.ZeroTauRaises | spaces/twoD.py:88 | with `tau = 0`, the first pass divides `0 / 0` |
| TwoD.NegativeTauRaises | spaces/twoD.py:88-95 | with `tau < 0`, `k < tau` never holds, so the first pass reads `lrd` unbound |
| TwoD.DecayStoreIterations | spaces/twoD.py:79-102 | with no pass, `iters` is unbound; `tau = 0` and `tau < 0` raise; otherwise one value per pass, each one update of the previous at the scheduled rate, with the inputs unchanged and the last value kept in the object |
| TwoD.EqualRatesMatchPlain | spaces/twoD.py:79-102 | with `epsilon_tau = lr`, the decaying descent records exactly what the plain `store_iterations` records, and ends in the same state |
| TwoD.ConstructedSchedule | spaces/twoD.py:73-102 | a freshly constructed object run for at least one pass records one value per pass: first at rate `lr`, then at the schedule with `tau = 20` and `epsilon_tau = decay_ratio * lr` |

## Left out

- Plotting: `State.plot_steps`, `Parabola.plot_function` and `SGDVisOneVariable.export_frame`.
  They only draw: the recorded histories, or, for `plot_function`, the curve `x ** degree`
  over the range of the input series.
- `animation/scene.py`: it stores video settings and builds the `ffmpeg` command strings that
  turn saved frames into a video or a GIF. It reads no history and computes nothing numeric.
- The plotting grid `x_space`/`y_space` that `State.__init__` builds is not modelled, because no
  run reads it.
- The `Parabola` methods `input_series`, `output_series` and `derivative` read an attribute
  `self.x` that is never set, and no modelled operation calls them.
- Floating point: rounding, infinities and NaN are not modelled, because numbers are exact reals.
- `OverflowError` is not modelled. The surface formulas use float `**`
  (spaces/threeD.py:14-42), which raises `OverflowError` once a result leaves the float range.
  So a claim that a run succeeds, or raises nothing but a zero division, holds over exact reals
  only. This applies to the success condition of `Momentum.RunGd`, to `AdaGrad.Succeeds` and
  `AdaGrad.StepSucceeds`, to the `RaisesOnlyZeroDivision` lemmas of `AdaGrad`, `RmsProp` and
  `Adam`, and to `StepRaisesOnlyZeroDivision` of `RmsProp` and `Adam`.
- `math.sqrt` is a parameter constrained only by `SqrtLike`, because its values are irrational.
- No property states that a run converges or stays bounded on a given surface. Those are
  numerical claims about particular inputs, not about the code's structure.
- Default argument values are not modelled; every parameter is explicit.
- The `if i == 0` branch inside each loop is taken out of the loop. `Momentum.RunGdLoop` seeds
  the lists before the loop, which is equivalent once the loop runs at least once.
- The object's state after an exception is not modelled: a run that raises returns only the
  error. A partly updated `theta` or partly filled list is not returned.
- `tau` is modelled as an integer. A non-integer `tau`, set by hand after construction, is not
  modelled.
- RmsProp.Accumulators: states non-negativity only. RMSProp accumulators can shrink, so the
  monotonicity that AdaGrad's accumulators have does not hold.
- There is no loop method for the decay variant's `store_iterations`. `TwoD.Passes` follows
  that loop pass by pass, carrying `lrd` as an `Option` that is `None` while unbound.

=== FILE: adagrad.dfy ===
/** `State.run_adagrad`: each coordinate's step is scaled down by its accumulated squared gradient. */
module AdaGrad {
  import opened Exceptions
  import opened Wrappers
  import opened Numeric
  import opened Surfaces
  import opened History
  import opened Adaptive
  import Trajectory

  /**
    * One update of `run_adagrad` with the gradient components `gx` and `gy` of the surface: add the squared gradient to each accumulator, then move
    * each coordinate by `-(epsilon / (delta + sqrt(r))) * g`, x first.
    */
  function Step(gx: Slope, gy: Slope, epsilon: real, delta: real, sqrt: real -> real, s: Accumulated): Result<Accumulated>
  {
    var a := gx(s.x, s.y);
    var b := gy(s.x, s.y);
    var rx := s.rx + a * a;
    var ry := s.ry + b * b;
    var dx :- Scaled(epsilon, delta, sqrt, rx, a);
    var dy :- Scaled(epsilon, delta, sqrt, ry, b);
    Success(Accumulated(s.x + dx, s.y + dy, rx, ry, dx, dy))
  }

  /** The update of one coordinate with accumulator `r` and gradient `g`: `-(epsilon / (delta + sqrt(r))) * g`. */
  function Scaled(epsilon: real, delta: real, sqrt: real -> real, r: real, g: real): (u: Result<real>)
    ensures u.Success? <==> 0.0 <= r && delta + sqrt(r) != 0.0
    ensures u.Failure? ==> u.error == if r < 0.0 then ValueError else ZeroDivisionError
  {
    var q :- Sqrt(sqrt, r);
    var k :- Divide(epsilon, delta + q);
    Success(-1.0 * k * g)
  }

  /** An update that does not raise, times its divisor `delta + sqrt(r)`, is `-epsilon * g`. */
  lemma ScaledValue(epsilon: real, delta: real, sqrt: real -> real, r: real, g: real)
    requires Scaled(epsilon, delta, sqrt, r, g).Success?
    ensures Scaled(epsilon, delta, sqrt, r, g).value * (delta + sqrt(r)) == -(epsilon * g)
  {
    var q := delta + sqrt(r);
    var k := epsilon / q;
    assert k * q == epsilon;
    assert (-1.0 * k * g) * q == -((k * q) * g);
  }

  /** With a positive `epsilon` and a non-negative divisor, an update that does not raise opposes its gradient. */
  lemma ScaledOpposes(epsilon: real, delta: real, sqrt: real -> real, r: real, g: real)
    requires epsilon > 0.0 && delta >= 0.0 && SqrtLike(sqrt)
    requires Scaled(epsilon, delta, sqrt, r, g).Success?
    ensures Opposes(Scaled(epsilon, delta, sqrt, r, g).value, g)
  {
    var k := epsilon / (delta + sqrt(r));
    assert k > 0.0;
  }

  /** The rule of `Scaled` as a function of the accumulator and the gradient. */
  function Rule(epsilon: real, delta: real, sqrt: real -> real): (real, real) -> Result<real>
  {
    (r, g) => Scaled(epsilon, delta, sqrt, r, g)
  }

  function StepOf(f: TestFunction, epsilon: real, delta: real, sqrt: real -> real): Accumulated -> Result<Accumulated>
  {
    s => Step(SlopeX(f), SlopeY(f), epsilon, delta, sqrt, s)
  }

  /** A successful update adds the squared gradient to each accumulator and moves by the update it records. */
  lemma StepFollows(gx: Slope, gy: Slope, epsilon: real, delta: real, sqrt: real -> real, s: Accumulated)
    requires Step(gx, gy, epsilon, delta, sqrt, s).Success?
    ensures Follows(gx, gy, s, Step(gx, gy, epsilon, delta, sqrt, s).value, 1.0, 1.0)
    ensures Scales(gx, gy, s, Step(gx, gy, epsilon, delta, sqrt, s).value, Rule(epsilon, delta, sqrt))
  {
  }

  /**
    * A successful update with a positive `epsilon` moves each coordinate against its gradient:
    * the divisor `delta + sqrt(r)` is non-negative and, as the division did not raise, non-zero.
    */
  lemma StepDescends(gx: Slope, gy: Slope, epsilon: real, delta: real, sqrt: real -> real, s: Accumulated)
    requires epsilon > 0.0 && delta >= 0.0 && SqrtLike(sqrt)
    requires Step(gx, gy, epsilon, delta, sqrt, s).Success?
    ensures Descends(gx, gy, s, Step(gx, gy, epsilon, delta, sqrt, s).value)
  {
    var n := Step(gx, gy, epsilon, delta, sqrt, s).value;
    StepFollows(gx, gy, epsilon, delta, sqrt, s);
    assert Scaled(epsilon, delta, sqrt, n.rx, gx(s.x, s.y)) == Success(n.dx);
    assert Scaled(epsilon, delta, sqrt, n.ry, gy(s.x, s.y)) == Success(n.dy);
    ScaledOpposes(epsilon, delta, sqrt, n.rx, gx(s.x, s.y));
    ScaledOpposes(epsilon, delta, sqrt, n.ry, gy(s.x, s.y));
  }

  function Trace(f: TestFunction, epsilon: real, delta: real, sqrt: real -> real, st: State): Result<seq<Accumulated>>
    requires st.iteration >= 0
  {
    Trajectory.TraceOrFail(StepOf(f, epsilon, delta, sqrt), Start(st), st.iteration)
  }

  lemma TraceFollows(f: TestFunction, epsilon: real, delta: real, sqrt: real -> real, st: State, trace: seq<Accumulated>)
    requires st.iteration >= 0 && Trace(f, epsilon, delta, sqrt, st) == Success(trace)
    ensures |trace| == st.iteration + 1 && trace[0] == Start(st)
    ensures forall i :: 0 <= i < st.iteration ==> Follows(SlopeX(f), SlopeY(f), trace[i], trace[i + 1], 1.0, 1.0)
    ensures forall i :: 0 <= i < st.iteration ==> Scales(SlopeX(f), SlopeY(f), trace[i], trace[i + 1], Rule(epsilon, delta, sqrt))
  {
    var step := StepOf(f, epsilon, delta, sqrt);
    forall s | step(s).Success?
      ensures Follows(SlopeX(f), SlopeY(f), s, step(s).value, 1.0, 1.0)
      ensures Scales(SlopeX(f), SlopeY(f), s, step(s).value, Rule(epsilon, delta, sqrt))
    {
      StepFollows(SlopeX(f), SlopeY(f), epsilon, delta, sqrt, s);
    }
    Trajectory.TraceOrFailRelates(step, Start(st), st.iteration, (s, n) => Follows(SlopeX(f), SlopeY(f), s, n, 1.0, 1.0));
    Trajectory.TraceOrFailRelates(step, Start(st), st.iteration, (s, n) => Scales(SlopeX(f), SlopeY(f), s, n, Rule(epsilon, delta, sqrt)));
  }

  /**
    * `run_adagrad`: the seven history lists of `st.iteration` updates. With no update the
    * lists are never bound; on an unknown surface the first accumulation adds up `None`s.
    * Each recorded accumulator is the one before it plus the squared gradient at the point
    * the update starts from, each recorded update is what `Scaled` gives for that accumulator and
    * gradient, and each position is the previous one moved by the recorded update.
    */
  function RunAdagrad(st: State, epsilon: real, delta: real, sqrt: real -> real): (r: Result<AdaptiveSteps>)
    ensures st.iteration < 1 ==> r == Failure(UnboundLocalError)
    ensures st.iteration >= 1 && Lookup(st.testFunction).None? ==> r == Failure(TypeError)
    ensures r.Success? ==>
              && Lookup(st.testFunction).Some?
              && Moved(r.value, Lookup(st.testFunction).value, st)
              && Accumulates(r.value, Lookup(st.testFunction).value, st,
                             SlopeX(Lookup(st.testFunction).value), SlopeY(Lookup(st.testFunction).value), 1.0, 1.0)
              && ScaledBy(r.value, Lookup(st.testFunction).value, st,
                          SlopeX(Lookup(st.testFunction).value), SlopeY(Lookup(st.testFunction).value), Rule(epsilon, delta, sqrt))
  {
    if st.iteration < 1 then Failure(UnboundLocalError)
    else
      match Lookup(st.testFunction)
      case None => Failure(TypeError)
      case Some(f) =>
        match Trace(f, epsilon, delta, sqrt, st)
        case Failure(e) => Failure(e)
        case Success(trace) =>
          TraceFollows(f, epsilon, delta, sqrt, st, trace);
          ReportFollows(f, trace, st, SlopeX(f), SlopeY(f), 1.0, 1.0);
          ReportScales(f, trace, st, SlopeX(f), SlopeY(f), Rule(epsilon, delta, sqrt));
          Success(Report(f, trace))
  }

  /** Accumulators that are non-negative stay so, and then the square roots cannot raise. */
  lemma StepKeepsSquares(gx: Slope, gy: Slope, epsilon: real, delta: real, sqrt: real -> real, s: Accumulated)
    requires s.rx >= 0.0 && s.ry >= 0.0
    ensures || (Step(gx, gy, epsilon, delta, sqrt, s).Success? && Step(gx, gy, epsilon, delta, sqrt, s).value.rx >= 0.0
                && Step(gx, gy, epsilon, delta, sqrt, s).value.ry >= 0.0)
            || Step(gx, gy, epsilon, delta, sqrt, s) == Failure(ZeroDivisionError)
  {
    var a := gx(s.x, s.y);
    var b := gy(s.x, s.y);
    assert a * a >= 0.0 && b * b >= 0.0;
  }

  /** With a positive `delta` every divisor `delta + sqrt(r)` is positive. */
  lemma StepSucceeds(gx: Slope, gy: Slope, epsilon: real, delta: real, sqrt: real -> real, s: Accumulated)
    requires delta > 0.0 && SqrtLike(sqrt) && s.rx >= 0.0 && s.ry >= 0.0
    ensures Step(gx, gy, epsilon, delta, sqrt, s).Success?
    ensures Step(gx, gy, epsilon, delta, sqrt, s).value.rx >= 0.0 && Step(gx, gy, epsilon, delta, sqrt, s).value.ry >= 0.0
  {
    var a := gx(s.x, s.y);
    var b := gy(s.x, s.y);
    assert a * a >= 0.0 && b * b >= 0.0;
    assert sqrt(s.rx + a * a) >= 0.0 && sqrt(s.ry + b * b) >= 0.0;
  }

  /** A known surface and at least one update: the only exception `run_adagrad` can raise is a zero division. */
  lemma RaisesOnlyZeroDivision(st: State, epsilon: real, delta: real, sqrt: real -> real)
    requires st.iteration >= 1 && Lookup(st.testFunction).Some?
    ensures RunAdagrad(st, epsilon, delta, sqrt).Failure? ==> RunAdagrad(st, epsilon, delta, sqrt).error == ZeroDivisionError
  {
    var f := Lookup(st.testFunction).value;
    var step := StepOf(f, epsilon, delta, sqrt);
    var inv := (s: Accumulated) => s.rx >= 0.0 && s.ry >= 0.0;
    forall s | inv(s)
      ensures (step(s).Success? && inv(step(s).value)) || step(s) == Failure(ZeroDivisionError)
    {
      StepKeepsSquares(SlopeX(f), SlopeY(f), epsilon, delta, sqrt, s);
    }
    Trajectory.TraceOrFailRaisesOnly(step, Start(st), st.iteration, inv, ZeroDivisionError);
  }

  /** With a positive `delta` (the default is 1e-7) a run on a known surface raises nothing. */
  lemma Succeeds(st: State, epsilon: real, delta: real, sqrt: real -> real)
    requires st.iteration >= 1 && Lookup(st.testFunction).Some? && delta > 0.0 && SqrtLike(sqrt)
    ensures RunAdagrad(st, epsilon, delta, sqrt).Success?
  {
    var f := Lookup(st.testFunction).value;
    var step := StepOf(f, epsilon, delta, sqrt);
    var inv := (s: Accumulated) => s.rx >= 0.0 && s.ry >= 0.0;
    forall s | inv(s)
      ensures step(s).Success? && inv(step(s).value)
    {
      StepSucceeds(SlopeX(f), SlopeY(f), epsilon, delta, sqrt, s);
    }
    Trajectory.TraceOrFailSucceeds(step, Start(st), st.iteration, inv);
  }

  /** The recorded accumulators are non-negative and never decrease. */
  lemma Accumulators(st: State, epsilon: real, delta: real, sqrt: real -> real)
    requires RunAdagrad(st, epsilon, delta, sqrt).Success?
    ensures var h := RunAdagrad(st, epsilon, delta, sqrt).value;
      forall i :: 1 <= i <= st.iteration ==> h.rxHistory[i].value >= 0.0 && h.ryHistory[i].value >= 0.0
    ensures var h := RunAdagrad(st, epsilon, delta, sqrt).value;
      forall i, j :: 1 <= i <= j <= st.iteration ==> h.rxHistory[i].value <= h.rxHistory[j].value && h.ryHistory[i].value <= h.ryHistory[j].value
  {
    var f := Lookup(st.testFunction).value;
    var h := RunAdagrad(st, epsilon, delta, sqrt).value;
    AccumulatesNonNegative(h, f, st, SlopeX(f), SlopeY(f), 1.0, 1.0);
    AccumulatesMonotone(h, f, st, SlopeX(f), SlopeY(f));
  }

  /** With a positive `epsilon`, each recorded update is zero or against the gradient at the point it starts from. */
  lemma MovesAgainstGradient(st: State, epsilon: real, delta: real, sqrt: real -> real)
    requires RunAdagrad(st, epsilon, delta, sqrt).Success? && epsilon > 0.0 && delta >= 0.0 && SqrtLike(sqrt)
    ensures var f := Lookup(st.testFunction).value;
      var h := RunAdagrad(st, epsilon, delta, sqrt).value;
      forall i :: 1 <= i <= st.iteration ==>
        && Opposes(h.deltaXHistory[i].value, Gx(f, h.steps.xHistory[i - 1], h.steps.yHistory[i - 1]))
        && Opposes(h.deltaYHistory[i].value, Gy(f, h.steps.xHistory[i - 1], h.steps.yHistory[i - 1]))
  {
    var f := Lookup(st.testFunction).value;
    var step := StepOf(f, epsilon, delta, sqrt);
    var trace := Trace(f, epsilon, delta, sqrt, st).value;
    var inv := (s: Accumulated) => s.rx >= 0.0 && s.ry >= 0.0;
    forall s | inv(s) && step(s).Success?
      ensures inv(step(s).value)
    {
      StepKeepsSquares(SlopeX(f), SlopeY(f), epsilon, delta, sqrt, s);
    }
    Trajectory.TraceOrFailKeeps(step, Start(st), st.iteration, inv);
    forall i | 0 <= i < st.iteration
      ensures Descends(SlopeX(f), SlopeY(f), trace[i], trace[i + 1])
    {
      assert inv(trace[i]) && step(trace[i]) == Success(trace[i + 1]);
      StepDescends(SlopeX(f), SlopeY(f), epsilon, delta, sqrt, trace[i]);
    }
    ReportDescends(f, trace, st, SlopeX(f), SlopeY(f));
    assert RunAdagrad(st, epsilon, delta, sqrt) == Success(Report(f, trace));
  }

  /** Without `delta`, a start at a point of zero x-gradient divides by `0 + sqrt(0)`. */
  lemma StallsWithoutDelta(st: State, epsilon: real, sqrt: real -> real)
    requires st.iteration >= 1 && Lookup(st.testFunction).Some? && SqrtLike(sqrt)
    requires Gx(Lookup(st.testFunction).value, st.xInitial, st.yInitial) == 0.0
    ensures RunAdagrad(st, epsilon, 0.0, sqrt) == Failure(ZeroDivisionError)
  {
    var f := Lookup(st.testFunction).value;
    StepStalls(SlopeX(f), SlopeY(f), epsilon, sqrt, Start(st));
    Trajectory.TraceOrFailFirstStep(StepOf(f, epsilon, 0.0, sqrt), Start(st), st.iteration);
  }

  lemma StepStalls(gx: Slope, gy: Slope, epsilon: real, sqrt: real -> real, s: Accumulated)
    requires SqrtLike(sqrt) && s.rx == 0.0 && gx(s.x, s.y) == 0.0
    ensures Step(gx, gy, epsilon, 0.0, sqrt, s) == Failure(ZeroDivisionError)
  {
    assert sqrt(0.0) == 0.0;
  }
}

=== FILE: adam.dfy ===
/**
  * `State.run_adam`: moving averages of the gradient and of its square, each divided by a
  * fixed constant before use; the time step `t` is counted but never read.
  */
module Adam {
  import opened Exceptions
  import opened Wrappers
  import opened Numeric
  import opened Surfaces
  import opened History
  import opened Adaptive
  import Trajectory

  /** Position, first moments `sx`, `sy`, second moments `rx`, `ry` and the time step. */
  datatype Moments = Moments(x: real, y: real, sx: real, sy: real, rx: real, ry: real, t: int)

  function PositionX(s: Moments): real
  {
    s.x
  }

  function PositionY(s: Moments): real
  {
    s.y
  }

  /** The start point with every moment and the time step at 0. */
  function Start(st: State): Moments
  {
    Moments(st.xInitial, st.yInitial, 0.0, 0.0, 0.0, 0.0, 0)
  }

  /**
    * One update of `run_adam` with the gradient components `gx` and `gy` of the surface: count
    * the time step, update both moments of each coordinate, divide the first moments by
    * `1 - rho1` and the second by `2 - rho2`, then move each coordinate, x first.
    */
  function Step(gx: Slope, gy: Slope, epsilon: real, rho1: real, rho2: real, delta: real, sqrt: real -> real, s: Moments): Result<Moments>
  {
    var a := gx(s.x, s.y);
    var b := gy(s.x, s.y);
    var sx := Average(rho1, s.sx, a);
    var sy := Average(rho1, s.sy, b);
    var rx := Blend(rho2, s.rx, 1.0 - rho2, a);
    var ry := Blend(rho2, s.ry, 1.0 - rho2, b);
    var sxHead :- Divide(sx, 1.0 - rho1);
    var syHead :- Divide(sy, 1.0 - rho1);
    var rxHead :- Divide(rx, 2.0 - rho2);
    var ryHead :- Divide(ry, 2.0 - rho2);
    var dx :- Scaled(epsilon, delta, sqrt, sxHead, rxHead);
    var dy :- Scaled(epsilon, delta, sqrt, syHead, ryHead);
    Success(Moments(s.x + dx, s.y + dy, sx, sy, rx, ry, s.t + 1))
  }

  /** A first moment's next value: `decay` times its past value plus `1 - decay` times the gradient `g`. */
  function Average(decay: real, past: real, g: real): real
  {
    decay * past + (1.0 - decay) * g
  }

  /**
    * One update from `s` to `n` as `run_adam` performs it: both moments of each coordinate take
    * in the gradient at `s`, the time step advances, and each coordinate moves by what `Scaled`
    * gives for its first moment divided by `1 - rho1` and its second divided by `2 - rho2`.
    */
  predicate Advances(gx: Slope, gy: Slope, epsilon: real, rho1: real, rho2: real, delta: real, sqrt: real -> real, s: Moments, n: Moments)
  {
    && n.sx == Average(rho1, s.sx, gx(s.x, s.y))
    && n.sy == Average(rho1, s.sy, gy(s.x, s.y))
    && n.rx == Blend(rho2, s.rx, 1.0 - rho2, gx(s.x, s.y))
    && n.ry == Blend(rho2, s.ry, 1.0 - rho2, gy(s.x, s.y))
    && n.t == s.t + 1
    && rho1 != 1.0 && rho2 != 2.0
    && Scaled(epsilon, delta, sqrt, n.sx / (1.0 - rho1), n.rx / (2.0 - rho2)) == Success(n.x - s.x)
    && Scaled(epsilon, delta, sqrt, n.sy / (1.0 - rho1), n.ry / (2.0 - rho2)) == Success(n.y - s.y)
  }

  /** A successful update advances the moments and moves by the bias-corrected step. */
  lemma StepAdvances(gx: Slope, gy: Slope, epsilon: real, rho1: real, rho2: real, delta: real, sqrt: real -> real, s: Moments)
    requires Step(gx, gy, epsilon, rho1, rho2, delta, sqrt, s).Success?
    ensures Advances(gx, gy, epsilon, rho1, rho2, delta, sqrt, s, Step(gx, gy, epsilon, rho1, rho2, delta, sqrt, s).value)
  {
    var n := Step(gx, gy, epsilon, rho1, rho2, delta, sqrt, s).value;
    assert Divide(n.sx, 1.0 - rho1).Success? && Divide(n.rx, 2.0 - rho2).Success?;
  }

  /** The update of one coordinate from its corrected moments `m` and `v`: `-epsilon * (m / (sqrt(v) + delta))`. */
  function Scaled(epsilon: real, delta: real, sqrt: real -> real, m: real, v: real): (u: Result<real>)
    ensures u.Success? <==> 0.0 <= v && sqrt(v) + delta != 0.0
    ensures u.Failure? ==> u.error == if v < 0.0 then ValueError else ZeroDivisionError
  {
    var q :- Sqrt(sqrt, v);
    var u :- Divide(m, q + delta);
    Success(-1.0 * epsilon * u)
  }

  /** An update that does not raise, times its divisor `sqrt(v) + delta`, is `-epsilon * m`. */
  lemma ScaledValue(epsilon: real, delta: real, sqrt: real -> real, m: real, v: real)
    requires Scaled(epsilon, delta, sqrt, m, v).Success?
    ensures Scaled(epsilon, delta, sqrt, m, v).value * (sqrt(v) + delta) == -(epsilon * m)
  {
    var q := sqrt(v) + delta;
    var u := m / q;
    assert u * q == m;
    assert (-1.0 * epsilon * u) * q == -(epsilon * (u * q));
  }

  /**
    * With a positive `epsilon` and a non-negative `delta`, an update that does not raise is zero
    * or of the sign opposite to the corrected first moment `m`.
    */
  lemma ScaledOpposes(epsilon: real, delta: real, sqrt: real -> real, m: real, v: real)
    requires epsilon > 0.0 && delta >= 0.0 && SqrtLike(sqrt)
    requires Scaled(epsilon, delta, sqrt, m, v).Success?
    ensures Opposes(Scaled(epsilon, delta, sqrt, m, v).value, m)
  {
    var q := sqrt(v) + delta;
    assert q > 0.0;
    var u := m / q;
    assert m > 0.0 ==> u > 0.0;
    assert m < 0.0 ==> u < 0.0;
  }

  /**
    * The x-coordinate is scaled first: when its update raises, that is the error the step
    * reports, whatever the y-coordinate would have raised.
    */
  lemma StepScalesXFirst(gx: Slope, gy: Slope, epsilon: real, rho1: real, rho2: real, delta: real, sqrt: real -> real, s: Moments)
    requires rho1 != 1.0 && rho2 != 2.0
    requires Scaled(epsilon, delta, sqrt, Average(rho1, s.sx, gx(s.x, s.y)) / (1.0 - rho1),
                    Blend(rho2, s.rx, 1.0 - rho2, gx(s.x, s.y)) / (2.0 - rho2)).Failure?
    ensures Step(gx, gy, epsilon, rho1, rho2, delta, sqrt, s)
         == Failure(Scaled(epsilon, delta, sqrt, Average(rho1, s.sx, gx(s.x, s.y)) / (1.0 - rho1),
                           Blend(rho2, s.rx, 1.0 - rho2, gx(s.x, s.y)) / (2.0 - rho2)).error)
  {
  }

  function StepOf(f: TestFunction, epsilon: real, rho1: real, rho2: real, delta: real, sqrt: real -> real): Moments -> Result<Moments>
  {
    s => Step(SlopeX(f), SlopeY(f), epsilon, rho1, rho2, delta, sqrt, s)
  }

  function Trace(f: TestFunction, epsilon: real, rho1: real, rho2: real, delta: real, sqrt: real -> real, st: State): Result<seq<Moments>>
    requires st.iteration >= 0
  {
    Trajectory.TraceOrFail(StepOf(f, epsilon, rho1, rho2, delta, sqrt), Start(st), st.iteration)
  }

  /**
    * `run_adam`: the three history lists of `st.iteration` updates. With no update the lists
    * are never bound; on an unknown surface the first moment update multiplies `None`. The
    * momentum parameter `alpha` is accepted and never used.
    */
  function RunAdam(st: State, epsilon: real, rho1: real, rho2: real, alpha: real, delta: real, sqrt: real -> real): (r: Result<Steps>)
    ensures st.iteration < 1 ==> r == Failure(UnboundLocalError)
    ensures st.iteration >= 1 && Lookup(st.testFunction).None? ==> r == Failure(TypeError)
    ensures r.Success? ==> Lookup(st.testFunction).Some? && Recorded(r.value, Lookup(st.testFunction).value, st)
  {
    if st.iteration < 1 then Failure(UnboundLocalError)
    else
      match Lookup(st.testFunction)
      case None => Failure(TypeError)
      case Some(f) =>
        match Trace(f, epsilon, rho1, rho2, delta, sqrt, st)
        case Failure(e) => Failure(e)
        case Success(trace) =>
          var h := Record(f, trace, PositionX, PositionY);
          assert Recorded(h, f, st);
          Success(h)
  }

  /** A successful run records the positions of its trajectory. */
  lemma RecordsTrace(st: State, epsilon: real, rho1: real, rho2: real, alpha: real, delta: real, sqrt: real -> real)
    requires RunAdam(st, epsilon, rho1, rho2, alpha, delta, sqrt).Success?
    ensures var f := Lookup(st.testFunction).value;
      var trace := Trace(f, epsilon, rho1, rho2, delta, sqrt, st);
      && trace.Success?
      && forall i :: 0 <= i <= st.iteration ==>
           && RunAdam(st, epsilon, rho1, rho2, alpha, delta, sqrt).value.xHistory[i] == trace.value[i].x
           && RunAdam(st, epsilon, rho1, rho2, alpha, delta, sqrt).value.yHistory[i] == trace.value[i].y
  {
  }

  /**
    * A successful run records the positions of a trajectory in which every update advances the
    * moments and moves by the bias-corrected step.
    */
  lemma Updates(st: State, epsilon: real, rho1: real, rho2: real, alpha: real, delta: real, sqrt: real -> real)
    requires RunAdam(st, epsilon, rho1, rho2, alpha, delta, sqrt).Success?
    ensures var f := Lookup(st.testFunction).value;
      var trace := Trace(f, epsilon, rho1, rho2, delta, sqrt, st);
      var h := RunAdam(st, epsilon, rho1, rho2, alpha, delta, sqrt).value;
      && trace.Success?
      && trace.value[0] == Start(st)
      && (forall i :: 0 <= i <= st.iteration ==> h.xHistory[i] == trace.value[i].x && h.yHistory[i] == trace.value[i].y)
      && forall i :: 0 <= i < st.iteration ==>
           Advances(SlopeX(f), SlopeY(f), epsilon, rho1, rho2, delta, sqrt, trace.value[i], trace.value[i + 1])
  {
    var f := Lookup(st.testFunction).value;
    var step := StepOf(f, epsilon, rho1, rho2, delta, sqrt);
    forall s | step(s).Success?
      ensures Advances(SlopeX(f), SlopeY(f), epsilon, rho1, rho2, delta, sqrt, s, step(s).value)
    {
      StepAdvances(SlopeX(f), SlopeY(f), epsilon, rho1, rho2, delta, sqrt, s);
    }
    Trajectory.TraceOrFailRelates(step, Start(st), st.iteration,
                                  (s, n) => Advances(SlopeX(f), SlopeY(f), epsilon, rho1, rho2, delta, sqrt, s, n));
    RecordsTrace(st, epsilon, rho1, rho2, alpha, delta, sqrt);
  }

  /**
    * With a positive `epsilon` and a non-negative `delta`, each recorded move is zero or against
    * the bias-corrected first moment of the update that made it.
    */
  lemma MovesAgainstMoment(st: State, epsilon: real, rho1: real, rho2: real, alpha: real, delta: real, sqrt: real -> real)
    requires RunAdam(st, epsilon, rho1, rho2, alpha, delta, sqrt).Success?
    requires epsilon > 0.0 && delta >= 0.0 && SqrtLike(sqrt)
    ensures rho1 != 1.0
    ensures var trace := Trace(Lookup(st.testFunction).value, epsilon, rho1, rho2, delta, sqrt, st).value;
      var h := RunAdam(st, epsilon, rho1, rho2, alpha, delta, sqrt).value;
      forall i :: 1 <= i <= st.iteration ==>
        && Opposes(h.xHistory[i] - h.xHistory[i - 1], trace[i].sx / (1.0 - rho1))
        && Opposes(h.yHistory[i] - h.yHistory[i - 1], trace[i].sy / (1.0 - rho1))
  {
    var f := Lookup(st.testFunction).value;
    var trace := Trace(f, epsilon, rho1, rho2, delta, sqrt, st).value;
    var h := RunAdam(st, epsilon, rho1, rho2, alpha, delta, sqrt).value;
    Updates(st, epsilon, rho1, rho2, alpha, delta, sqrt);
    assert Advances(SlopeX(f), SlopeY(f), epsilon, rho1, rho2, delta, sqrt, trace[0], trace[1]);
    forall i | 1 <= i <= st.iteration
      ensures Opposes(h.xHistory[i] - h.xHistory[i - 1], trace[i].sx / (1.0 - rho1))
      ensures Opposes(h.yHistory[i] - h.yHistory[i - 1], trace[i].sy / (1.0 - rho1))
    {
      var s, n := trace[i - 1], trace[i];
      assert Advances(SlopeX(f), SlopeY(f), epsilon, rho1, rho2, delta, sqrt, s, n);
      ScaledOpposes(epsilon, delta, sqrt, n.sx / (1.0 - rho1), n.rx / (2.0 - rho2));
      ScaledOpposes(epsilon, delta, sqrt, n.sy / (1.0 - rho1), n.ry / (2.0 - rho2));
    }
  }

  /** `alpha` has no effect on the run. */
  lemma IgnoresAlpha(st: State, epsilon: real, rho1: real, rho2: real, alpha: real, alpha': real, delta: real, sqrt: real -> real)
    ensures RunAdam(st, epsilon, rho1, rho2, alpha, delta, sqrt) == RunAdam(st, epsilon, rho1, rho2, alpha', delta, sqrt)
  {
  }

  /**
    * The bias correction does not depend on the time step: an update from a state with any
    * other `t` raises the same way or reaches the same state, one time step later.
    */
  lemma StepIgnoresTime(gx: Slope, gy: Slope, epsilon: real, rho1: real, rho2: real, delta: real, sqrt: real -> real, s: Moments, t: int)
    ensures Step(gx, gy, epsilon, rho1, rho2, delta, sqrt, s.(t := t)).Success? == Step(gx, gy, epsilon, rho1, rho2, delta, sqrt, s).Success?
    ensures Step(gx, gy, epsilon, rho1, rho2, delta, sqrt, s).Failure? ==>
              Step(gx, gy, epsilon, rho1, rho2, delta, sqrt, s.(t := t)) == Step(gx, gy, epsilon, rho1, rho2, delta, sqrt, s)
    ensures Step(gx, gy, epsilon, rho1, rho2, delta, sqrt, s).Success? ==>
              Step(gx, gy, epsilon, rho1, rho2, delta, sqrt, s.(t := t)).value
              == Step(gx, gy, epsilon, rho1, rho2, delta, sqrt, s).value.(t := t + 1)
  {
    var u := s.(t := t);
    assert u.x == s.x && u.y == s.y && u.sx == s.sx && u.sy == s.sy && u.rx == s.rx && u.ry == s.ry;
    assert gx(u.x, u.y) == gx(s.x, s.y) && gy(u.x, u.y) == gy(s.x, s.y);
    if Step(gx, gy, epsilon, rho1, rho2, delta, sqrt, s).Success? {
      var n := Step(gx, gy, epsilon, rho1, rho2, delta, sqrt, s).value;
      var m := Step(gx, gy, epsilon, rho1, rho2, delta, sqrt, u).value;
      assert m.x == n.x && m.y == n.y && m.sx == n.sx && m.sy == n.sy && m.rx == n.rx && m.ry == n.ry && m.t == t + 1;
    }
  }

  /** Each update advances the time step by one. */
  lemma StepCounts(gx: Slope, gy: Slope, epsilon: real, rho1: real, rho2: real, delta: real, sqrt: real -> real, s: Moments)
    requires Step(gx, gy, epsilon, rho1, rho2, delta, sqrt, s).Success?
    ensures Step(gx, gy, epsilon, rho1, rho2, delta, sqrt, s).value.t == s.t + 1
  {
  }

  /** Along a successful trajectory the time step equals the number of completed updates. */
  lemma TimeCounts(f: TestFunction, epsilon: real, rho1: real, rho2: real, delta: real, sqrt: real -> real, st: State)
    requires st.iteration >= 0 && Trace(f, epsilon, rho1, rho2, delta, sqrt, st).Success?
    ensures forall i :: 0 <= i <= st.iteration ==> Trace(f, epsilon, rho1, rho2, delta, sqrt, st).value[i].t == i
  {
    var step := StepOf(f, epsilon, rho1, rho2, delta, sqrt);
    var trace := Trace(f, epsilon, rho1, rho2, delta, sqrt, st).value;
    forall s | step(s).Success?
      ensures step(s).value.t == s.t + 1
    {
      StepCounts(SlopeX(f), SlopeY(f), epsilon, rho1, rho2, delta, sqrt, s);
    }
    Trajectory.TraceOrFailRelates(step, Start(st), st.iteration, (s: Moments, n: Moments) => n.t == s.t + 1);
    forall i | 0 <= i <= st.iteration
      ensures trace[i].t == i
    {
      CountsUp(trace, i);
    }
  }

  lemma {:induction false} CountsUp(trace: seq<Moments>, i: int)
    requires 0 <= i < |trace| && trace[0].t == 0
    requires forall k :: 0 <= k < |trace| - 1 ==> trace[k + 1].t == trace[k].t + 1
    ensures trace[i].t == i
  {
    if i > 0 {
      CountsUp(trace, i - 1);
    }
  }

  /** With `0 <= rho2 <= 1` (the default is 0.999) the second moments stay non-negative. */
  lemma StepKeepsSquares(gx: Slope, gy: Slope, epsilon: real, rho1: real, rho2: real, delta: real, sqrt: real -> real, s: Moments)
    requires 0.0 <= rho2 <= 1.0 && s.rx >= 0.0 && s.ry >= 0.0
    ensures Step(gx, gy, epsilon, rho1, rho2, delta, sqrt, s).Success? ==>
              Step(gx, gy, epsilon, rho1, rho2, delta, sqrt, s).value.rx >= 0.0 && Step(gx, gy, epsilon, rho1, rho2, delta, sqrt, s).value.ry >= 0.0
  {
    BlendNonNegative(rho2, s.rx, 1.0 - rho2, gx(s.x, s.y));
    BlendNonNegative(rho2, s.ry, 1.0 - rho2, gy(s.x, s.y));
  }

  /** Along a successful trajectory with `0 <= rho2 <= 1` every second moment is non-negative. */
  lemma SecondMomentsNonNegative(f: TestFunction, epsilon: real, rho1: real, rho2: real, delta: real, sqrt: real -> real, st: State)
    requires st.iteration >= 0 && Trace(f, epsilon, rho1, rho2, delta, sqrt, st).Success? && 0.0 <= rho2 <= 1.0
    ensures forall i :: 0 <= i <= st.iteration ==>
              Trace(f, epsilon, rho1, rho2, delta, sqrt, st).value[i].rx >= 0.0 && Trace(f, epsilon, rho1, rho2, delta, sqrt, st).value[i].ry >= 0.0
  {
    var step := StepOf(f, epsilon, rho1, rho2, delta, sqrt);
    var inv := (s: Moments) => s.rx >= 0.0 && s.ry >= 0.0;
    forall s | inv(s) && step(s).Success?
      ensures inv(step(s).value)
    {
      StepKeepsSquares(SlopeX(f), SlopeY(f), epsilon, rho1, rho2, delta, sqrt, s);
    }
    Trajectory.TraceOrFailKeeps(step, Start(st), st.iteration, inv);
  }

  /**
    * With `rho1 != 1`, `0 <= rho2 <= 1` and non-negative second moments, the divisions by the
    * constants succeed and the square root cannot raise: only `sqrt(v) + delta == 0` can, and
    * not with a positive `delta`.
    */
  lemma StepRaisesOnlyZeroDivision(gx: Slope, gy: Slope, epsilon: real, rho1: real, rho2: real, delta: real, sqrt: real -> real, s: Moments)
    requires rho1 != 1.0 && 0.0 <= rho2 <= 1.0 && delta >= 0.0 && SqrtLike(sqrt) && s.rx >= 0.0 && s.ry >= 0.0
    ensures Step(gx, gy, epsilon, rho1, rho2, delta, sqrt, s).Failure? ==> Step(gx, gy, epsilon, rho1, rho2, delta, sqrt, s).error == ZeroDivisionError
    ensures delta > 0.0 ==> Step(gx, gy, epsilon, rho1, rho2, delta, sqrt, s).Success?
  {
    var rx := Blend(rho2, s.rx, 1.0 - rho2, gx(s.x, s.y));
    var ry := Blend(rho2, s.ry, 1.0 - rho2, gy(s.x, s.y));
    BlendNonNegative(rho2, s.rx, 1.0 - rho2, gx(s.x, s.y));
    BlendNonNegative(rho2, s.ry, 1.0 - rho2, gy(s.x, s.y));
    assert rx / (2.0 - rho2) >= 0.0 && ry / (2.0 - rho2) >= 0.0;
    if delta > 0.0 {
      assert sqrt(rx / (2.0 - rho2)) + delta > 0.0 && sqrt(ry / (2.0 - rho2)) + delta > 0.0;
    }
  }

  /**
    * A known surface, at least one update, `rho1 != 1`, `0 <= rho2 <= 1` and a non-negative
    * `delta`: only a zero division can be raised, and with a positive `delta` (the default is
    * 1e-8) nothing is.
    */
  lemma RaisesOnlyZeroDivision(st: State, epsilon: real, rho1: real, rho2: real, alpha: real, delta: real, sqrt: real -> real)
    requires st.iteration >= 1 && Lookup(st.testFunction).Some?
    requires rho1 != 1.0 && 0.0 <= rho2 <= 1.0 && delta >= 0.0 && SqrtLike(sqrt)
    ensures RunAdam(st, epsilon, rho1, rho2, alpha, delta, sqrt).Failure? ==>
              RunAdam(st, epsilon, rho1, rho2, alpha, delta, sqrt).error == ZeroDivisionError
    ensures delta > 0.0 ==> RunAdam(st, epsilon, rho1, rho2, alpha, delta, sqrt).Success?
  {
    var f := Lookup(st.testFunction).value;
    var step := StepOf(f, epsilon, rho1, rho2, delta, sqrt);
    var inv := (s: Moments) => s.rx >= 0.0 && s.ry >= 0.0;
    forall s | inv(s)
      ensures (step(s).Success? && inv(step(s).value)) || step(s) == Failure(ZeroDivisionError)
      ensures delta > 0.0 ==> step(s).Success? && inv(step(s).value)
    {
      StepKeepsSquares(SlopeX(f), SlopeY(f), epsilon, rho1, rho2, delta, sqrt, s);
      StepRaisesOnlyZeroDivision(SlopeX(f), SlopeY(f), epsilon, rho1, rho2, delta, sqrt, s);
    }
    Trajectory.TraceOrFailRaisesOnly(step, Start(st), st.iteration, inv, ZeroDivisionError);
    if delta > 0.0 {
      Trajectory.TraceOrFailSucceeds(step, Start(st), st.iteration, inv);
    }
  }

  /** `rho1 == 1` makes the first-moment divisor `1 - rho1` zero, so the first update raises. */
  lemma StepRhoOneRaises(gx: Slope, gy: Slope, epsilon: real, rho2: real, delta: real, sqrt: real -> real, s: Moments)
    ensures Step(gx, gy, epsilon, 1.0, rho2, delta, sqrt, s) == Failure(ZeroDivisionError)
  {
  }

  /** `rho2 == 2` (with `rho1 != 1`) makes the second-moment divisor `2 - rho2` zero. */
  lemma StepRhoTwoRaises(gx: Slope, gy: Slope, epsilon: real, rho1: real, delta: real, sqrt: real -> real, s: Moments)
    requires rho1 != 1.0
    ensures Step(gx, gy, epsilon, rho1, 2.0, delta, sqrt, s) == Failure(ZeroDivisionError)
  {
  }

  /** On a known surface, a run with `rho1 == 1`, or with `rho2 == 2`, raises a zero division. */
  lemma ConstantDivisorsRaise(st: State, epsilon: real, rho1: real, rho2: real, alpha: real, delta: real, sqrt: real -> real)
    requires st.iteration >= 1 && Lookup(st.testFunction).Some? && (rho1 == 1.0 || rho2 == 2.0)
    ensures RunAdam(st, epsilon, rho1, rho2, alpha, delta, sqrt) == Failure(ZeroDivisionError)
  {
    var f := Lookup(st.testFunction).value;
    if rho1 == 1.0 {
      StepRhoOneRaises(SlopeX(f), SlopeY(f), epsilon, rho2, delta, sqrt, Start(st));
    } else {
      StepRhoTwoRaises(SlopeX(f), SlopeY(f), epsilon, rho1, delta, sqrt, Start(st));
    }
    Trajectory.TraceOrFailFirstStep(StepOf(f, epsilon, rho1, rho2, delta, sqrt), Start(st), st.iteration);
  }
}

=== FILE: adaptive.dfy ===
/** The state and the seven history lists shared by `run_adagrad` and `run_rmsprop`. */
module Adaptive {
  import opened Wrappers
  import opened Surfaces
  import opened History

  /**
    * Position, squared-gradient accumulators and the update that produced the position.
    * The updates of the start state are never recorded.
    */
  datatype Accumulated = Accumulated(x: real, y: real, rx: real, ry: real, dx: real, dy: real)

  function PositionX(s: Accumulated): real
  {
    s.x
  }

  function PositionY(s: Accumulated): real
  {
    s.y
  }

  function DeltaX(s: Accumulated): real
  {
    s.dx
  }

  function DeltaY(s: Accumulated): real
  {
    s.dy
  }

  function SquaresX(s: Accumulated): real
  {
    s.rx
  }

  function SquaresY(s: Accumulated): real
  {
    s.ry
  }

  /** The start point with both accumulators at 0. */
  function Start(st: State): Accumulated
  {
    Accumulated(st.xInitial, st.yInitial, 0.0, 0.0, 0.0, 0.0)
  }

  /** `h` has the shape of a run from `st` on `f`: positions and heights, and four diagnostic lists. */
  predicate Reported(h: AdaptiveSteps, f: TestFunction, st: State)
  {
    && Recorded(h.steps, f, st)
    && Diagnostic(h.deltaXHistory, st)
    && Diagnostic(h.deltaYHistory, st)
    && Diagnostic(h.rxHistory, st)
    && Diagnostic(h.ryHistory, st)
  }

  /** Besides having that shape, each recorded position is the previous one moved by the recorded update. */
  predicate Moved(h: AdaptiveSteps, f: TestFunction, st: State)
  {
    && Reported(h, f, st)
    && forall i :: 1 <= i <= st.iteration ==>
         && h.steps.xHistory[i] == h.steps.xHistory[i - 1] + h.deltaXHistory[i].value
         && h.steps.yHistory[i] == h.steps.yHistory[i - 1] + h.deltaYHistory[i].value
  }

  /** The accumulator before update `i`: the entry before it, or the initial 0 before the first update. */
  function Previous(d: seq<Option<real>>, i: int): real
    requires 1 <= i < |d| && (i > 1 ==> d[i - 1].Some?)
  {
    if i == 1 then 0.0 else d[i - 1].value
  }

  /** An accumulator's next value: `decay` times its past value plus `weight` times the squared gradient `g`. */
  function Blend(decay: real, past: real, weight: real, g: real): real
  {
    decay * past + weight * (g * g)
  }

  lemma BlendNonNegative(decay: real, past: real, weight: real, g: real)
    requires decay >= 0.0 && past >= 0.0 && weight >= 0.0
    ensures Blend(decay, past, weight, g) >= 0.0
  {
    assert g * g >= 0.0;
    assert decay * past >= 0.0 && weight * (g * g) >= 0.0;
  }

  /**
    * Each recorded accumulator is `decay` times the one before it plus `weight` times the
    * squared gradient at the point the update starts from.
    */
  predicate Accumulates(h: AdaptiveSteps, f: TestFunction, st: State, gx: Slope, gy: Slope, decay: real, weight: real)
    requires Reported(h, f, st)
  {
    forall i :: 1 <= i <= st.iteration ==>
      && h.rxHistory[i].value
         == Blend(decay, Previous(h.rxHistory, i), weight, gx(h.steps.xHistory[i - 1], h.steps.yHistory[i - 1]))
      && h.ryHistory[i].value
         == Blend(decay, Previous(h.ryHistory, i), weight, gy(h.steps.xHistory[i - 1], h.steps.yHistory[i - 1]))
  }

  /**
    * Each recorded update is what the rule `scale` gives for the accumulator recorded beside it
    * and the gradient at the point the update starts from.
    */
  predicate ScaledBy(h: AdaptiveSteps, f: TestFunction, st: State, gx: Slope, gy: Slope, scale: (real, real) -> Result<real>)
    requires Reported(h, f, st)
  {
    forall i :: 1 <= i <= st.iteration ==>
      && scale(h.rxHistory[i].value, gx(h.steps.xHistory[i - 1], h.steps.yHistory[i - 1])) == Success(h.deltaXHistory[i].value)
      && scale(h.ryHistory[i].value, gy(h.steps.xHistory[i - 1], h.steps.yHistory[i - 1])) == Success(h.deltaYHistory[i].value)
  }

  /** The update recorded in `n` is what `scale` gives for the accumulator of `n` and the gradient at `s`. */
  predicate Scales(gx: Slope, gy: Slope, s: Accumulated, n: Accumulated, scale: (real, real) -> Result<real>)
  {
    && scale(n.rx, gx(s.x, s.y)) == Success(n.dx)
    && scale(n.ry, gy(s.x, s.y)) == Success(n.dy)
  }

  /** An update `d` of a coordinate whose gradient is `g` is zero or of the opposite sign. */
  predicate Opposes(d: real, g: real)
  {
    && (g == 0.0 ==> d == 0.0)
    && (g > 0.0 ==> d < 0.0)
    && (g < 0.0 ==> d > 0.0)
  }

  /**
    * One update from `s` to `n` as both adaptive methods perform it: each accumulator is
    * `decay` times its old value plus `weight` times the squared gradient at `s`, and the
    * position moves by the update `n` records.
    */
  predicate Follows(gx: Slope, gy: Slope, s: Accumulated, n: Accumulated, decay: real, weight: real)
  {
    && n.rx == Blend(decay, s.rx, weight, gx(s.x, s.y))
    && n.ry == Blend(decay, s.ry, weight, gy(s.x, s.y))
    && n.x == s.x + n.dx
    && n.y == s.y + n.dy
  }

  /** The update that leads from `s` to `n` is zero or against the gradient at `s`, in both coordinates. */
  predicate Descends(gx: Slope, gy: Slope, s: Accumulated, n: Accumulated)
  {
    Opposes(n.dx, gx(s.x, s.y)) && Opposes(n.dy, gy(s.x, s.y))
  }

  /** The seven history lists of a trajectory. */
  function Report(f: TestFunction, trace: seq<Accumulated>): AdaptiveSteps
  {
    AdaptiveSteps(
      Record(f, trace, PositionX, PositionY),
      Diagnose(trace, DeltaX),
      Diagnose(trace, DeltaY),
      Diagnose(trace, SquaresX),
      Diagnose(trace, SquaresY))
  }

  /** The lists of a trajectory of `st.iteration` updates from the start state report one entry per state. */
  lemma ReportEntries(f: TestFunction, trace: seq<Accumulated>, st: State)
    requires st.iteration >= 0 && |trace| == st.iteration + 1 && trace[0] == Start(st)
    ensures Reported(Report(f, trace), f, st)
    ensures forall i :: 0 <= i < |trace| ==>
              Report(f, trace).steps.xHistory[i] == trace[i].x && Report(f, trace).steps.yHistory[i] == trace[i].y
    ensures forall i :: 1 <= i < |trace| ==>
              && Report(f, trace).deltaXHistory[i] == Some(trace[i].dx)
              && Report(f, trace).deltaYHistory[i] == Some(trace[i].dy)
              && Report(f, trace).rxHistory[i] == Some(trace[i].rx)
              && Report(f, trace).ryHistory[i] == Some(trace[i].ry)
  {
    var h := Report(f, trace);
    assert Recorded(h.steps, f, st);
  }

  /** A trajectory whose every update follows the accumulation rule reports a moved, accumulating run. */
  lemma {:induction false} ReportFollows(f: TestFunction, trace: seq<Accumulated>, st: State, gx: Slope, gy: Slope, decay: real, weight: real)
    requires st.iteration >= 0 && |trace| == st.iteration + 1 && trace[0] == Start(st)
    requires forall i :: 0 <= i < st.iteration ==> Follows(gx, gy, trace[i], trace[i + 1], decay, weight)
    ensures Moved(Report(f, trace), f, st) && Accumulates(Report(f, trace), f, st, gx, gy, decay, weight)
  {
    var h := Report(f, trace);
    ReportEntries(f, trace, st);
    forall i | 1 <= i <= st.iteration
      ensures h.steps.xHistory[i] == h.steps.xHistory[i - 1] + h.deltaXHistory[i].value
      ensures h.steps.yHistory[i] == h.steps.yHistory[i - 1] + h.deltaYHistory[i].value
    {
      assert Follows(gx, gy, trace[i - 1], trace[i], decay, weight);
    }
    forall i | 1 <= i <= st.iteration
      ensures Previous(h.rxHistory, i) == trace[i - 1].rx && Previous(h.ryHistory, i) == trace[i - 1].ry
    {
      if i == 1 {
        assert trace[0] == Start(st);
      }
    }
    forall i | 1 <= i <= st.iteration
      ensures h.rxHistory[i].value == Blend(decay, Previous(h.rxHistory, i), weight, gx(h.steps.xHistory[i - 1], h.steps.yHistory[i - 1]))
      ensures h.ryHistory[i].value == Blend(decay, Previous(h.ryHistory, i), weight, gy(h.steps.xHistory[i - 1], h.steps.yHistory[i - 1]))
    {
      assert Follows(gx, gy, trace[i - 1], trace[i], decay, weight);
    }
  }

  /** A trajectory whose every update follows the rule `scale` reports updates that follow it. */
  lemma ReportScales(f: TestFunction, trace: seq<Accumulated>, st: State, gx: Slope, gy: Slope, scale: (real, real) -> Result<real>)
    requires st.iteration >= 0 && |trace| == st.iteration + 1 && trace[0] == Start(st)
    requires forall i :: 0 <= i < st.iteration ==> Scales(gx, gy, trace[i], trace[i + 1], scale)
    ensures Reported(Report(f, trace), f, st) && ScaledBy(Report(f, trace), f, st, gx, gy, scale)
  {
    ReportEntries(f, trace, st);
    forall i | 1 <= i <= st.iteration
      ensures Scales(gx, gy, trace[i - 1], trace[i], scale)
    {
      assert Scales(gx, gy, trace[i - 1], trace[i], scale);
    }
  }

  /** A trajectory whose every update descends reports updates against the gradient at the previous point. */
  lemma ReportDescends(f: TestFunction, trace: seq<Accumulated>, st: State, gx: Slope, gy: Slope)
    requires st.iteration >= 0 && |trace| == st.iteration + 1 && trace[0] == Start(st)
    requires forall i :: 0 <= i < st.iteration ==> Descends(gx, gy, trace[i], trace[i + 1])
    ensures Reported(Report(f, trace), f, st)
    ensures var h := Report(f, trace);
      forall i :: 1 <= i <= st.iteration ==>
        && Opposes(h.deltaXHistory[i].value, gx(h.steps.xHistory[i - 1], h.steps.yHistory[i - 1]))
        && Opposes(h.deltaYHistory[i].value, gy(h.steps.xHistory[i - 1], h.steps.yHistory[i - 1]))
  {
    ReportEntries(f, trace, st);
    forall i | 1 <= i <= st.iteration
      ensures Descends(gx, gy, trace[i - 1], trace[i])
    {
      assert Descends(gx, gy, trace[i - 1], trace[i]);
    }
  }

  /** Accumulators that add a non-negative share of a square to a non-negative share of their past stay non-negative. */
  lemma {:induction false} AccumulatesNonNegative(h: AdaptiveSteps, f: TestFunction, st: State, gx: Slope, gy: Slope, decay: real, weight: real)
    requires Reported(h, f, st) && Accumulates(h, f, st, gx, gy, decay, weight)
    requires decay >= 0.0 && weight >= 0.0
    ensures forall i :: 1 <= i <= st.iteration ==> h.rxHistory[i].value >= 0.0 && h.ryHistory[i].value >= 0.0
  {
    forall i | 1 <= i <= st.iteration
      ensures h.rxHistory[i].value >= 0.0 && h.ryHistory[i].value >= 0.0
    {
      NonNegativeUpTo(h, f, st, gx, gy, decay, weight, i);
    }
  }

  lemma {:induction false} NonNegativeUpTo(h: AdaptiveSteps, f: TestFunction, st: State, gx: Slope, gy: Slope, decay: real, weight: real, i: int)
    requires Reported(h, f, st) && Accumulates(h, f, st, gx, gy, decay, weight)
    requires decay >= 0.0 && weight >= 0.0 && 1 <= i <= st.iteration
    ensures h.rxHistory[i].value >= 0.0 && h.ryHistory[i].value >= 0.0
    decreases i
  {
    if i > 1 {
      NonNegativeUpTo(h, f, st, gx, gy, decay, weight, i - 1);
    }
    BlendNonNegative(decay, Previous(h.rxHistory, i), weight, gx(h.steps.xHistory[i - 1], h.steps.yHistory[i - 1]));
    BlendNonNegative(decay, Previous(h.ryHistory, i), weight, gy(h.steps.xHistory[i - 1], h.steps.yHistory[i - 1]));
  }

  /** Accumulators that keep all of their past and add a square never decrease. */
  lemma AccumulatesMonotone(h: AdaptiveSteps, f: TestFunction, st: State, gx: Slope, gy: Slope)
    requires Reported(h, f, st) && Accumulates(h, f, st, gx, gy, 1.0, 1.0)
    ensures forall i, j :: 1 <= i <= j <= st.iteration ==> h.rxHistory[i].value <= h.rxHistory[j].value && h.ryHistory[i].value <= h.ryHistory[j].value
  {
    forall i, j | 1 <= i <= j <= st.iteration
      ensures h.rxHistory[i].value <= h.rxHistory[j].value && h.ryHistory[i].value <= h.ryHistory[j].value
    {
      MonotoneUpTo(h, f, st, gx, gy, i, j);
    }
  }

  lemma {:induction false} MonotoneUpTo(h: AdaptiveSteps, f: TestFunction, st: State, gx: Slope, gy: Slope, i: int, j: int)
    requires Reported(h, f, st) && Accumulates(h, f, st, gx, gy, 1.0, 1.0)
    requires 1 <= i <= j <= st.iteration
    ensures h.rxHistory[i].value <= h.rxHistory[j].value && h.ryHistory[i].value <= h.ryHistory[j].value
    decreases j - i
  {
    if i < j {
      MonotoneUpTo(h, f, st, gx, gy, i, j - 1);
      GrowsAt(h, f, st, gx, gy, j);
    }
  }

  /** An accumulator that keeps all of its past and adds a square is at least its previous entry. */
  lemma GrowsAt(h: AdaptiveSteps, f: TestFunction, st: State, gx: Slope, gy: Slope, j: int)
    requires Reported(h, f, st) && Accumulates(h, f, st, gx, gy, 1.0, 1.0)
    requires 2 <= j <= st.iteration
    ensures h.rxHistory[j - 1].value <= h.rxHistory[j].value && h.ryHistory[j - 1].value <= h.ryHistory[j].value
  {
    var a := gx(h.steps.xHistory[j - 1], h.steps.yHistory[j - 1]);
    var b := gy(h.steps.xHistory[j - 1], h.steps.yHistory[j - 1]);
    assert h.rxHistory[j].value == Blend(1.0, Previous(h.rxHistory, j), 1.0, a);
    assert h.ryHistory[j].value == Blend(1.0, Previous(h.ryHistory, j), 1.0, b);
    assert a * a >= 0.0 && b * b >= 0.0;
  }
}

=== FILE: exceptions.dfy ===
/**
  * The Python exceptions the modelled code raises on some input. Every run that can raise
  * returns one of these inside a `Wrappers.Result` instead of a value.
  */
module Exceptions {

  datatype Error =
    | UnboundLocalError   // a history list, `iters` or the rate `lrd` read before any assignment
    | TypeError           // arithmetic on the `None` an unknown surface name yields
    | ZeroDivisionError   // a float division by zero
    | ValueError          // `math.sqrt` of a negative number
}

=== FILE: history.dfy ===
/** What a `State` is built with and the history dictionaries its `run_*` methods return. */
module History {
  import opened Wrappers
  import opened Surfaces

  /**
    * A `State`: start point, surface name and number of parameter updates. The plotting
    * grid it also builds is not modelled.
    */
  datatype State = State(xInitial: real, yInitial: real, testFunction: string, iteration: int)

  /** The `x_history`, `y_history` and `z_history` lists of a run. */
  datatype Steps = Steps(xHistory: seq<real>, yHistory: seq<real>, zHistory: seq<real>)

  /** The extra per-iteration lists of `run_adagrad` and `run_rmsprop`; entry 0 of each is `None`. */
  datatype AdaptiveSteps = AdaptiveSteps(
    steps: Steps,
    deltaXHistory: seq<Option<real>>,
    deltaYHistory: seq<Option<real>>,
    rxHistory: seq<Option<real>>,
    ryHistory: seq<Option<real>>)

  /**
    * `h` holds the start point and one point per update of a run from `st` on `f`,
    * with the surface height of each point beside it.
    */
  predicate Recorded(h: Steps, f: TestFunction, st: State)
  {
    && st.iteration >= 0
    && |h.xHistory| == st.iteration + 1
    && |h.yHistory| == st.iteration + 1
    && |h.zHistory| == st.iteration + 1
    && h.xHistory[0] == st.xInitial
    && h.yHistory[0] == st.yInitial
    && forall i {:trigger h.zHistory[i]} :: 0 <= i <= st.iteration ==> h.zHistory[i] == Z(f, h.xHistory[i], h.yHistory[i])
  }

  /** A diagnostic list: `None` before the first update, a number after each update. */
  predicate Diagnostic(d: seq<Option<real>>, st: State)
  {
    && st.iteration >= 0
    && |d| == st.iteration + 1
    && d[0] == None
    && forall i :: 1 <= i <= st.iteration ==> d[i].Some?
  }

  /** The history lists of a trajectory, given how to read a point off each state. */
  function Record<S>(f: TestFunction, trace: seq<S>, x: S -> real, y: S -> real): (r: Steps)
    ensures |r.xHistory| == |trace| && |r.yHistory| == |trace| && |r.zHistory| == |trace|
    ensures forall i :: 0 <= i < |trace| ==>
              r.xHistory[i] == x(trace[i]) && r.yHistory[i] == y(trace[i]) && r.zHistory[i] == Z(f, x(trace[i]), y(trace[i]))
  {
    var xs := seq(|trace|, i requires 0 <= i < |trace| => x(trace[i]));
    var ys := seq(|trace|, i requires 0 <= i < |trace| => y(trace[i]));
    Steps(xs, ys, seq(|trace|, i requires 0 <= i < |trace| => Z(f, xs[i], ys[i])))
  }

  /** A diagnostic list of a trajectory: `None`, then the value read off each updated state. */
  function Diagnose<S>(trace: seq<S>, d: S -> real): (r: seq<Option<real>>)
    ensures |r| == |trace| && (|trace| > 0 ==> r[0] == None)
    ensures forall i :: 0 < i < |trace| ==> r[i] == Some(d(trace[i]))
  {
    seq(|trace|, i requires 0 <= i < |trace| => if i == 0 then None else Some(d(trace[i])))
  }
}

=== FILE: momentum.dfy ===
/** `State.run_gd`: gradient descent with standard or Nesterov momentum on a test surface. */
module Momentum {
  import opened Exceptions
  import opened Wrappers
  import opened Surfaces
  import opened History
  import Trajectory

  /** Position and velocity between two updates. */
  datatype Motion = Motion(x: real, y: real, vx: real, vy: real)

  function PositionX(m: Motion): real
  {
    m.x
  }

  function PositionY(m: Motion): real
  {
    m.y
  }

  /**
    * Where an update takes the gradient of a coordinate at position `p` with velocity `v`: the
    * look-ahead point `p + alpha * v` with Nesterov momentum, the position itself otherwise.
    */
  function LookAhead(p: real, v: real, alpha: real, nesterov: bool): real
  {
    if nesterov then p + alpha * v else p
  }

  /** The velocity after an update: `alpha` times the old velocity `v`, less `epsilon` times the gradient `g`. */
  function Velocity(v: real, alpha: real, epsilon: real, g: real): real
  {
    alpha * v - epsilon * g
  }

  /**
    * One update of `run_gd`: the velocity decays by `alpha` and moves against the gradient at the
    * look-ahead point; the position then moves by exactly the new velocity.
    */
  function Step(gx: Slope, gy: Slope, epsilon: real, alpha: real, nesterov: bool, m: Motion): Motion
  {
    var xTilda := LookAhead(m.x, m.vx, alpha, nesterov);
    var yTilda := LookAhead(m.y, m.vy, alpha, nesterov);
    var vx := Velocity(m.vx, alpha, epsilon, gx(xTilda, yTilda));
    var vy := Velocity(m.vy, alpha, epsilon, gy(xTilda, yTilda));
    Motion(m.x + vx, m.y + vy, vx, vy)
  }

  function StepOf(f: TestFunction, epsilon: real, alpha: real, nesterov: bool): Motion -> Motion
  {
    m => Step(SlopeX(f), SlopeY(f), epsilon, alpha, nesterov, m)
  }

  /** The start point at rest: both velocities begin at 0. */
  function Start(st: State): Motion
  {
    Motion(st.xInitial, st.yInitial, 0.0, 0.0)
  }

  function Trace(f: TestFunction, epsilon: real, alpha: real, nesterov: bool, st: State): seq<Motion>
    requires st.iteration >= 0
  {
    Trajectory.Trace(StepOf(f, epsilon, alpha, nesterov), Start(st), st.iteration)
  }

  /**
    * The positions `xs`, `ys` follow the momentum recurrence for the gradient components `gx`,
    * `gy`: the first update starts at rest and moves straight against the gradient; every later
    * one keeps `alpha` times the previous displacement and moves against the gradient at the
    * look-ahead point of that displacement.
    */
  predicate Moves(xs: seq<real>, ys: seq<real>, gx: Slope, gy: Slope, epsilon: real, alpha: real, nesterov: bool)
    requires 2 <= |xs| == |ys|
  {
    && xs[1] == xs[0] - epsilon * gx(xs[0], ys[0])
    && ys[1] == ys[0] - epsilon * gy(xs[0], ys[0])
    && forall i :: 1 <= i < |xs| - 1 ==> Recurs(xs, ys, i, gx, gy, epsilon, alpha, nesterov)
  }

  /** Update `i + 1`, with the displacement of update `i` as the velocity. */
  predicate Recurs(xs: seq<real>, ys: seq<real>, i: int, gx: Slope, gy: Slope, epsilon: real, alpha: real, nesterov: bool)
    requires 1 <= i && i + 1 < |xs| && i + 1 < |ys|
  {
    Recurrence(xs[i - 1], ys[i - 1], xs[i], ys[i], xs[i + 1], ys[i + 1], gx, gy, epsilon, alpha, nesterov)
  }

  /**
    * Three consecutive points: from (`x1`, `y1`), reached with the velocity (`x1 - x0`, `y1 - y0`),
    * the next update leads to (`x2`, `y2`).
    */
  predicate Recurrence(x0: real, y0: real, x1: real, y1: real, x2: real, y2: real, gx: Slope, gy: Slope, epsilon: real, alpha: real, nesterov: bool)
  {
    var vx := x1 - x0;
    var vy := y1 - y0;
    var px := LookAhead(x1, vx, alpha, nesterov);
    var py := LookAhead(y1, vy, alpha, nesterov);
    && x2 == x1 + Velocity(vx, alpha, epsilon, gx(px, py))
    && y2 == y1 + Velocity(vy, alpha, epsilon, gy(px, py))
  }

  /**
    * `run_gd`: the position histories of `st.iteration` momentum updates. With no update
    * the history lists are never bound; on an unknown surface the first update multiplies
    * the missing gradient. The recorded positions follow the momentum recurrence.
    */
  function RunGd(st: State, epsilon: real, alpha: real, nesterov: bool): (r: Result<Steps>)
    ensures st.iteration < 1 ==> r == Failure(UnboundLocalError)
    ensures st.iteration >= 1 && Lookup(st.testFunction).None? ==> r == Failure(TypeError)
    ensures r.Success? <==> st.iteration >= 1 && Lookup(st.testFunction).Some?
    ensures r.Success? ==>
              && Lookup(st.testFunction).Some?
              && Recorded(r.value, Lookup(st.testFunction).value, st)
              && Moves(r.value.xHistory, r.value.yHistory, SlopeX(Lookup(st.testFunction).value), SlopeY(Lookup(st.testFunction).value),
                       epsilon, alpha, nesterov)
  {
    if st.iteration < 1 then Failure(UnboundLocalError)
    else
      match Lookup(st.testFunction)
      case None => Failure(TypeError)
      case Some(f) =>
        var trace := Trace(f, epsilon, alpha, nesterov, st);
        var h := Record(f, trace, PositionX, PositionY);
        TraceMoves(SlopeX(f), SlopeY(f), epsilon, alpha, nesterov, trace, h.xHistory, h.yHistory);
        assert Recorded(h, f, st);
        Success(h)
  }

  /**
    * The positions of a trajectory that starts at rest follow the momentum recurrence: each
    * velocity after the start is the displacement of the update that produced it.
    */
  lemma TraceMoves(gx: Slope, gy: Slope, epsilon: real, alpha: real, nesterov: bool, trace: seq<Motion>, xs: seq<real>, ys: seq<real>)
    requires 2 <= |trace| == |xs| == |ys| && trace[0].vx == 0.0 && trace[0].vy == 0.0
    requires forall i {:trigger Step(gx, gy, epsilon, alpha, nesterov, trace[i])} :: 0 <= i < |trace| - 1 ==> trace[i + 1] == Step(gx, gy, epsilon, alpha, nesterov, trace[i])
    requires forall i :: 0 <= i < |trace| ==> xs[i] == trace[i].x && ys[i] == trace[i].y
    ensures Moves(xs, ys, gx, gy, epsilon, alpha, nesterov)
  {
    StepFromRest(gx, gy, epsilon, alpha, nesterov, trace[0], trace[1]);
    forall i | 1 <= i < |xs| - 1
      ensures Recurs(xs, ys, i, gx, gy, epsilon, alpha, nesterov)
    {
      var a, b, c := trace[i - 1], trace[i], trace[i + 1];
      StepRecurs(gx, gy, epsilon, alpha, nesterov, a, b, c);
      assert xs[i - 1] == a.x && xs[i] == b.x && xs[i + 1] == c.x;
      assert ys[i - 1] == a.y && ys[i] == b.y && ys[i + 1] == c.y;
    }
  }

  /** The first update starts at rest, so it moves straight against the gradient at the start point. */
  lemma StepFromRest(gx: Slope, gy: Slope, epsilon: real, alpha: real, nesterov: bool, a: Motion, b: Motion)
    requires a.vx == 0.0 && a.vy == 0.0 && b == Step(gx, gy, epsilon, alpha, nesterov, a)
    ensures b.x == a.x - epsilon * gx(a.x, a.y) && b.y == a.y - epsilon * gy(a.x, a.y)
  {
    assert LookAhead(a.x, a.vx, alpha, nesterov) == a.x && LookAhead(a.y, a.vy, alpha, nesterov) == a.y;
  }

  /** Two updates in a row: the second keeps `alpha` times the displacement of the first. */
  lemma StepRecurs(gx: Slope, gy: Slope, epsilon: real, alpha: real, nesterov: bool, a: Motion, b: Motion, c: Motion)
    requires b == Step(gx, gy, epsilon, alpha, nesterov, a)
    requires c == Step(gx, gy, epsilon, alpha, nesterov, b)
    ensures Recurrence(a.x, a.y, b.x, b.y, c.x, c.y, gx, gy, epsilon, alpha, nesterov)
  {
    assert b.vx == b.x - a.x && b.vy == b.y - a.y;
  }

  /** An update whose gradient components at the look-ahead point are `g` and `h` gives the velocity (`vx`, `vy`). */
  lemma StepWith(gx: Slope, gy: Slope, epsilon: real, alpha: real, nesterov: bool, m: Motion, g: real, h: real, vx: real, vy: real)
    requires g == gx(LookAhead(m.x, m.vx, alpha, nesterov), LookAhead(m.y, m.vy, alpha, nesterov))
    requires h == gy(LookAhead(m.x, m.vx, alpha, nesterov), LookAhead(m.y, m.vy, alpha, nesterov))
    requires vx == Velocity(m.vx, alpha, epsilon, g) && vy == Velocity(m.vy, alpha, epsilon, h)
    ensures Step(gx, gy, epsilon, alpha, nesterov, m) == Motion(m.x + vx, m.y + vy, vx, vy)
  {
  }

  /**
    * The body of the `run_gd` loop as written: both branches of the velocity and position update,
    * with `get_gx_at` and `get_gy_at` as `getGx` and `getGy`.
    */
  method Update(getGx: Slope, getGy: Slope, epsilon: real, alpha: real, nesterov: bool, x0: real, y0: real, vx0: real, vy0: real)
    returns (x: real, y: real, vx: real, vy: real)
    ensures Motion(x, y, vx, vy) == Step(getGx, getGy, epsilon, alpha, nesterov, Motion(x0, y0, vx0, vy0))
  {
    ghost var m := Motion(x0, y0, vx0, vy0);
    x, y, vx, vy := x0, y0, vx0, vy0;
    if nesterov {
      var xTilda := x + alpha * vx;
      var yTilda := y + alpha * vy;
      assert xTilda == LookAhead(m.x, m.vx, alpha, nesterov) && yTilda == LookAhead(m.y, m.vy, alpha, nesterov);
      var gx := getGx(xTilda, yTilda);
      var gy := getGy(xTilda, yTilda);
      vx := alpha * vx - epsilon * gx;
      vy := alpha * vy - epsilon * gy;
      StepWith(getGx, getGy, epsilon, alpha, nesterov, m, gx, gy, vx, vy);
      x := x + vx;
      y := y + vy;
    } else {
      assert x == LookAhead(m.x, m.vx, alpha, nesterov) && y == LookAhead(m.y, m.vy, alpha, nesterov);
      var gx := getGx(x, y);
      var gy := getGy(x, y);
      vx := alpha * vx - epsilon * gx;
      vy := alpha * vy - epsilon * gy;
      StepWith(getGx, getGy, epsilon, alpha, nesterov, m, gx, gy, vx, vy);
      x := x + vx;
      y := y + vy;
    }
  }

  /**
    * The loop of `run_gd` as written; the start point the first pass records is recorded before
    * the loop instead.
    */
  method RunGdLoop(st: State, epsilon: real, alpha: real, nesterov: bool) returns (r: Result<Steps>)
    ensures r == RunGd(st, epsilon, alpha, nesterov)
  {
    if st.iteration < 1 {
      return Failure(UnboundLocalError);
    }
    var found := Lookup(st.testFunction);
    if found.None? {
      return Failure(TypeError);
    }
    var f := found.value;
    ghost var trace := Trace(f, epsilon, alpha, nesterov, st);
    var vx, vy := 0.0, 0.0;
    var x, y := st.xInitial, st.yInitial;
    var xHistory, yHistory, zHistory := [x], [y], [Z(f, x, y)];
    var i := 0;
    while i < st.iteration
      invariant 0 <= i <= st.iteration
      invariant Motion(x, y, vx, vy) == trace[i]
      invariant |xHistory| == i + 1 && |yHistory| == i + 1 && |zHistory| == i + 1
      invariant forall j :: 0 <= j <= i ==> xHistory[j] == trace[j].x && yHistory[j] == trace[j].y
      invariant forall j :: 0 <= j <= i ==> zHistory[j] == Z(f, trace[j].x, trace[j].y)
    {
      x, y, vx, vy := Update(SlopeX(f), SlopeY(f), epsilon, alpha, nesterov, x, y, vx, vy);
      assert trace[i + 1] == StepOf(f, epsilon, alpha, nesterov)(trace[i]);
      var z := Z(f, x, y);
      xHistory, yHistory, zHistory := xHistory + [x], yHistory + [y], zHistory + [z];
      i := i + 1;
    }
    var h := Record(f, trace, PositionX, PositionY);
    assert forall j :: 0 <= j < |trace| ==> xHistory[j] == h.xHistory[j] && yHistory[j] == h.yHistory[j];
    assert xHistory == h.xHistory && yHistory == h.yHistory;
    assert forall j :: 0 <= j < |trace| ==> zHistory[j] == h.zHistory[j];
    assert zHistory == h.zHistory;
    r := Success(Steps(xHistory, yHistory, zHistory));
  }

  /** With a zero learning rate the velocity stays 0, so every recorded point is the start point. */
  lemma ZeroLearningRateStaysPut(st: State, alpha: real, nesterov: bool)
    requires RunGd(st, 0.0, alpha, nesterov).Success?
    ensures forall i :: 0 <= i <= st.iteration ==>
              RunGd(st, 0.0, alpha, nesterov).value.xHistory[i] == st.xInitial
              && RunGd(st, 0.0, alpha, nesterov).value.yHistory[i] == st.yInitial
  {
    var f := Lookup(st.testFunction).value;
    assert StepOf(f, 0.0, alpha, nesterov)(Start(st)) == Start(st);
    Trajectory.TraceAtFixedPoint(StepOf(f, 0.0, alpha, nesterov), Start(st), st.iteration);
  }

  /** From rest the look-ahead point is the position itself. */
  lemma LookAheadAtRest(gx: Slope, gy: Slope, epsilon: real, alpha: real, m: Motion)
    requires m.vx == 0.0 && m.vy == 0.0
    ensures Step(gx, gy, epsilon, alpha, true, m) == Step(gx, gy, epsilon, alpha, false, m)
  {
    assert LookAhead(m.x, m.vx, alpha, true) == m.x && LookAhead(m.y, m.vy, alpha, true) == m.y;
  }

  /** The first update is the same with and without Nesterov: the look-ahead of a point at rest is the point. */
  lemma NesterovFirstStepAgrees(st: State, epsilon: real, alpha: real)
    requires st.iteration >= 1 && Lookup(st.testFunction).Some?
    ensures RunGd(st, epsilon, alpha, true).value.xHistory[..2] == RunGd(st, epsilon, alpha, false).value.xHistory[..2]
    ensures RunGd(st, epsilon, alpha, true).value.yHistory[..2] == RunGd(st, epsilon, alpha, false).value.yHistory[..2]
    ensures RunGd(st, epsilon, alpha, true).value.zHistory[..2] == RunGd(st, epsilon, alpha, false).value.zHistory[..2]
  {
    var f := Lookup(st.testFunction).value;
    LookAheadAtRest(SlopeX(f), SlopeY(f), epsilon, alpha, Start(st));
    var n, s := Trace(f, epsilon, alpha, true, st), Trace(f, epsilon, alpha, false, st);
    assert n[0] == s[0] && n[1] == s[1];
  }

  /** Without momentum the look-ahead point is the position, so both branches record the same run. */
  lemma NesterovWithoutMomentum(st: State, epsilon: real)
    ensures RunGd(st, epsilon, 0.0, true) == RunGd(st, epsilon, 0.0, false)
  {
    if st.iteration >= 1 && Lookup(st.testFunction).Some? {
      var f := Lookup(st.testFunction).value;
      forall m ensures StepOf(f, epsilon, 0.0, true)(m) == StepOf(f, epsilon, 0.0, false)(m) {
        assert LookAhead(m.x, m.vx, 0.0, true) == m.x && LookAhead(m.y, m.vy, 0.0, true) == m.y;
      }
      Trajectory.TraceCongruent(StepOf(f, epsilon, 0.0, true), StepOf(f, epsilon, 0.0, false), Start(st), st.iteration);
    }
  }
}

=== FILE: numeric.dfy ===
/** Python float operations over exact reals: division and `math.sqrt` raise, powers are iterated products. */
module Numeric {
  import opened Exceptions
  import opened Wrappers

  /** `a / b`, raising on a zero divisor as Python does. */
  function Divide(a: real, b: real): (r: Result<real>)
    ensures r.Success? <==> b != 0.0
    ensures r.Success? ==> r.value * b == a
  {
    if b == 0.0 then Failure(ZeroDivisionError) else Success(a / b)
  }

  /** The properties of `math.sqrt` the model relies on: non-negative on its domain, zero exactly at zero. */
  ghost predicate SqrtLike(sqrt: real -> real)
  {
    forall a :: 0.0 <= a ==> 0.0 <= sqrt(a) && (sqrt(a) == 0.0 <==> a == 0.0)
  }

  /** `math.sqrt(a)` for an abstract `sqrt`: raises on a negative argument. */
  function Sqrt(sqrt: real -> real, a: real): (r: Result<real>)
    ensures r.Success? <==> 0.0 <= a
    ensures SqrtLike(sqrt) && r.Success? ==> 0.0 <= r.value && (r.value == 0.0 <==> a == 0.0)
  {
    if a < 0.0 then Failure(ValueError) else Success(sqrt(a))
  }

  /** `b ** n` for a natural exponent. */
  function Pow(b: real, n: nat): real
  {
    if n == 0 then 1.0 else b * Pow(b, n - 1)
  }

  /** `abs(a)`. */
  function Abs(a: real): real
  {
    if a < 0.0 then -a else a
  }

  /** Every power of one is one. */
  lemma {:induction false} PowOfOne(n: nat)
    ensures Pow(1.0, n) == 1.0
  {
    if n > 0 {
      PowOfOne(n - 1);
    }
  }
}

=== FILE: rmsprop.dfy ===
/** `State.run_rmsprop`: as AdaGrad, but the accumulators forget their past at the decay rate `rho`. */
module RmsProp {
  import opened Exceptions
  import opened Wrappers
  import opened Numeric
  import opened Surfaces
  import opened History
  import opened Adaptive
  import Trajectory

  /**
    * One update of `run_rmsprop` with the gradient components `gx` and `gy` of the surface:
    * replace each accumulator `r` by `rho * r + (1 - rho) * g * g`, then move each coordinate by
    * `-(epsilon / sqrt(delta + r)) * g`, x first.
    */
  function Step(gx: Slope, gy: Slope, epsilon: real, rho: real, delta: real, sqrt: real -> real, s: Accumulated): Result<Accumulated>
  {
    var a := gx(s.x, s.y);
    var b := gy(s.x, s.y);
    var rx := Blend(rho, s.rx, 1.0 - rho, a);
    var ry := Blend(rho, s.ry, 1.0 - rho, b);
    var dx :- Scaled(epsilon, delta, sqrt, rx, a);
    var dy :- Scaled(epsilon, delta, sqrt, ry, b);
    Success(Accumulated(s.x + dx, s.y + dy, rx, ry, dx, dy))
  }

  /** The update of one coordinate with accumulator `r` and gradient `g`: `-(epsilon / sqrt(delta + r)) * g`. */
  function Scaled(epsilon: real, delta: real, sqrt: real -> real, r: real, g: real): (u: Result<real>)
    ensures u.Success? <==> 0.0 <= delta + r && sqrt(delta + r) != 0.0
    ensures u.Failure? ==> u.error == if delta + r < 0.0 then ValueError else ZeroDivisionError
  {
    var q :- Sqrt(sqrt, delta + r);
    var k :- Divide(epsilon, q);
    Success(-1.0 * k * g)
  }

  /** An update that does not raise, times its divisor `sqrt(delta + r)`, is `-epsilon * g`. */
  lemma ScaledValue(epsilon: real, delta: real, sqrt: real -> real, r: real, g: real)
    requires Scaled(epsilon, delta, sqrt, r, g).Success?
    ensures Scaled(epsilon, delta, sqrt, r, g).value * sqrt(delta + r) == -(epsilon * g)
  {
    var q := sqrt(delta + r);
    var k := epsilon / q;
    assert k * q == epsilon;
    assert (-1.0 * k * g) * q == -((k * q) * g);
  }

  /** With a positive `epsilon`, an update that does not raise opposes its gradient: its divisor is a positive root. */
  lemma ScaledOpposes(epsilon: real, delta: real, sqrt: real -> real, r: real, g: real)
    requires epsilon > 0.0 && SqrtLike(sqrt)
    requires Scaled(epsilon, delta, sqrt, r, g).Success?
    ensures Opposes(Scaled(epsilon, delta, sqrt, r, g).value, g)
  {
    var k := epsilon / sqrt(delta + r);
    assert k > 0.0;
  }

  /** The rule of `Scaled` as a function of the accumulator and the gradient. */
  function Rule(epsilon: real, delta: real, sqrt: real -> real): (real, real) -> Result<real>
  {
    (r, g) => Scaled(epsilon, delta, sqrt, r, g)
  }

  function StepOf(f: TestFunction, epsilon: real, rho: real, delta: real, sqrt: real -> real): Accumulated -> Result<Accumulated>
  {
    s => Step(SlopeX(f), SlopeY(f), epsilon, rho, delta, sqrt, s)
  }

  /** A successful update blends each accumulator with the squared gradient and moves by the update it records. */
  lemma StepFollows(gx: Slope, gy: Slope, epsilon: real, rho: real, delta: real, sqrt: real -> real, s: Accumulated)
    requires Step(gx, gy, epsilon, rho, delta, sqrt, s).Success?
    ensures Follows(gx, gy, s, Step(gx, gy, epsilon, rho, delta, sqrt, s).value, rho, 1.0 - rho)
    ensures Scales(gx, gy, s, Step(gx, gy, epsilon, rho, delta, sqrt, s).value, Rule(epsilon, delta, sqrt))
  {
  }

  /** With a positive `epsilon`, a successful update moves each coordinate against its gradient. */
  lemma StepDescends(gx: Slope, gy: Slope, epsilon: real, rho: real, delta: real, sqrt: real -> real, s: Accumulated)
    requires epsilon > 0.0 && SqrtLike(sqrt)
    requires Step(gx, gy, epsilon, rho, delta, sqrt, s).Success?
    ensures Descends(gx, gy, s, Step(gx, gy, epsilon, rho, delta, sqrt, s).value)
  {
    var n := Step(gx, gy, epsilon, rho, delta, sqrt, s).value;
    StepFollows(gx, gy, epsilon, rho, delta, sqrt, s);
    assert Scaled(epsilon, delta, sqrt, n.rx, gx(s.x, s.y)) == Success(n.dx);
    assert Scaled(epsilon, delta, sqrt, n.ry, gy(s.x, s.y)) == Success(n.dy);
    ScaledOpposes(epsilon, delta, sqrt, n.rx, gx(s.x, s.y));
    ScaledOpposes(epsilon, delta, sqrt, n.ry, gy(s.x, s.y));
  }

  /** With `0 <= rho <= 1` the new accumulators are non-negative when the old ones are. */
  lemma StepKeepsSquares(gx: Slope, gy: Slope, epsilon: real, rho: real, delta: real, sqrt: real -> real, s: Accumulated)
    requires 0.0 <= rho <= 1.0 && s.rx >= 0.0 && s.ry >= 0.0
    ensures Step(gx, gy, epsilon, rho, delta, sqrt, s).Success? ==>
              Step(gx, gy, epsilon, rho, delta, sqrt, s).value.rx >= 0.0 && Step(gx, gy, epsilon, rho, delta, sqrt, s).value.ry >= 0.0
  {
    BlendNonNegative(rho, s.rx, 1.0 - rho, gx(s.x, s.y));
    BlendNonNegative(rho, s.ry, 1.0 - rho, gy(s.x, s.y));
  }

  /**
    * With `0 <= rho <= 1` and a non-negative `delta` the square roots cannot raise, so a zero
    * division is the only exception; with a positive `delta` there is none.
    */
  lemma StepRaisesOnlyZeroDivision(gx: Slope, gy: Slope, epsilon: real, rho: real, delta: real, sqrt: real -> real, s: Accumulated)
    requires 0.0 <= rho <= 1.0 && delta >= 0.0 && SqrtLike(sqrt) && s.rx >= 0.0 && s.ry >= 0.0
    ensures Step(gx, gy, epsilon, rho, delta, sqrt, s).Failure? ==> Step(gx, gy, epsilon, rho, delta, sqrt, s).error == ZeroDivisionError
    ensures delta > 0.0 ==> Step(gx, gy, epsilon, rho, delta, sqrt, s).Success?
  {
    var rx := Blend(rho, s.rx, 1.0 - rho, gx(s.x, s.y));
    var ry := Blend(rho, s.ry, 1.0 - rho, gy(s.x, s.y));
    BlendNonNegative(rho, s.rx, 1.0 - rho, gx(s.x, s.y));
    BlendNonNegative(rho, s.ry, 1.0 - rho, gy(s.x, s.y));
    if delta > 0.0 {
      assert sqrt(delta + rx) > 0.0 && sqrt(delta + ry) > 0.0;
    }
  }

  function Trace(f: TestFunction, epsilon: real, rho: real, delta: real, sqrt: real -> real, st: State): Result<seq<Accumulated>>
    requires st.iteration >= 0
  {
    Trajectory.TraceOrFail(StepOf(f, epsilon, rho, delta, sqrt), Start(st), st.iteration)
  }

  lemma TraceFollows(f: TestFunction, epsilon: real, rho: real, delta: real, sqrt: real -> real, st: State, trace: seq<Accumulated>)
    requires st.iteration >= 0 && Trace(f, epsilon, rho, delta, sqrt, st) == Success(trace)
    ensures |trace| == st.iteration + 1 && trace[0] == Start(st)
    ensures forall i :: 0 <= i < st.iteration ==> Follows(SlopeX(f), SlopeY(f), trace[i], trace[i + 1], rho, 1.0 - rho)
    ensures forall i :: 0 <= i < st.iteration ==> Scales(SlopeX(f), SlopeY(f), trace[i], trace[i + 1], Rule(epsilon, delta, sqrt))
  {
    var step := StepOf(f, epsilon, rho, delta, sqrt);
    forall s | step(s).Success?
      ensures Follows(SlopeX(f), SlopeY(f), s, step(s).value, rho, 1.0 - rho)
      ensures Scales(SlopeX(f), SlopeY(f), s, step(s).value, Rule(epsilon, delta, sqrt))
    {
      StepFollows(SlopeX(f), SlopeY(f), epsilon, rho, delta, sqrt, s);
    }
    Trajectory.TraceOrFailRelates(step, Start(st), st.iteration, (s, n) => Follows(SlopeX(f), SlopeY(f), s, n, rho, 1.0 - rho));
    Trajectory.TraceOrFailRelates(step, Start(st), st.iteration, (s, n) => Scales(SlopeX(f), SlopeY(f), s, n, Rule(epsilon, delta, sqrt)));
  }

  /**
    * `run_rmsprop`: the seven history lists of `st.iteration` updates. With no update the
    * lists are never bound; on an unknown surface the first accumulation multiplies `None`s.
    * Each recorded accumulator is `rho` times the one before it plus `1 - rho` times the
    * squared gradient at the point the update starts from, each recorded update is what `Scaled`
    * gives for that accumulator and gradient, and each position is the previous one moved by
    * the recorded update.
    */
  function RunRmsprop(st: State, epsilon: real, rho: real, delta: real, sqrt: real -> real): (r: Result<AdaptiveSteps>)
    ensures st.iteration < 1 ==> r == Failure(UnboundLocalError)
    ensures st.iteration >= 1 && Lookup(st.testFunction).None? ==> r == Failure(TypeError)
    ensures r.Success? ==>
              && Lookup(st.testFunction).Some?
              && Moved(r.value, Lookup(st.testFunction).value, st)
              && Accumulates(r.value, Lookup(st.testFunction).value, st,
                             SlopeX(Lookup(st.testFunction).value), SlopeY(Lookup(st.testFunction).value), rho, 1.0 - rho)
              && ScaledBy(r.value, Lookup(st.testFunction).value, st,
                          SlopeX(Lookup(st.testFunction).value), SlopeY(Lookup(st.testFunction).value), Rule(epsilon, delta, sqrt))
  {
    if st.iteration < 1 then Failure(UnboundLocalError)
    else
      match Lookup(st.testFunction)
      case None => Failure(TypeError)
      case Some(f) =>
        match Trace(f, epsilon, rho, delta, sqrt, st)
        case Failure(e) => Failure(e)
        case Success(trace) =>
          TraceFollows(f, epsilon, rho, delta, sqrt, st, trace);
          ReportFollows(f, trace, st, SlopeX(f), SlopeY(f), rho, 1.0 - rho);
          ReportScales(f, trace, st, SlopeX(f), SlopeY(f), Rule(epsilon, delta, sqrt));
          Success(Report(f, trace))
  }

  /**
    * A known surface, at least one update, `0 <= rho <= 1` (the default is 0.9) and a
    * non-negative `delta`: only a zero division can be raised, and with a positive `delta`
    * (the default is 1e-6) nothing is.
    */
  lemma RaisesOnlyZeroDivision(st: State, epsilon: real, rho: real, delta: real, sqrt: real -> real)
    requires st.iteration >= 1 && Lookup(st.testFunction).Some?
    requires 0.0 <= rho <= 1.0 && delta >= 0.0 && SqrtLike(sqrt)
    ensures RunRmsprop(st, epsilon, rho, delta, sqrt).Failure? ==> RunRmsprop(st, epsilon, rho, delta, sqrt).error == ZeroDivisionError
    ensures delta > 0.0 ==> RunRmsprop(st, epsilon, rho, delta, sqrt).Success?
  {
    var f := Lookup(st.testFunction).value;
    var step := StepOf(f, epsilon, rho, delta, sqrt);
    var inv := (s: Accumulated) => s.rx >= 0.0 && s.ry >= 0.0;
    forall s | inv(s)
      ensures (step(s).Success? && inv(step(s).value)) || step(s) == Failure(ZeroDivisionError)
      ensures delta > 0.0 ==> step(s).Success? && inv(step(s).value)
    {
      StepKeepsSquares(SlopeX(f), SlopeY(f), epsilon, rho, delta, sqrt, s);
      StepRaisesOnlyZeroDivision(SlopeX(f), SlopeY(f), epsilon, rho, delta, sqrt, s);
    }
    Trajectory.TraceOrFailRaisesOnly(step, Start(st), st.iteration, inv, ZeroDivisionError);
    if delta > 0.0 {
      Trajectory.TraceOrFailSucceeds(step, Start(st), st.iteration, inv);
    }
  }

  /** With `0 <= rho <= 1` the recorded accumulators are non-negative. */
  lemma Accumulators(st: State, epsilon: real, rho: real, delta: real, sqrt: real -> real)
    requires RunRmsprop(st, epsilon, rho, delta, sqrt).Success? && 0.0 <= rho <= 1.0
    ensures var h := RunRmsprop(st, epsilon, rho, delta, sqrt).value;
      forall i :: 1 <= i <= st.iteration ==> h.rxHistory[i].value >= 0.0 && h.ryHistory[i].value >= 0.0
  {
    var f := Lookup(st.testFunction).value;
    var step := StepOf(f, epsilon, rho, delta, sqrt);
    var trace := Trace(f, epsilon, rho, delta, sqrt, st).value;
    var inv := (s: Accumulated) => s.rx >= 0.0 && s.ry >= 0.0;
    forall s | inv(s) && step(s).Success?
      ensures inv(step(s).value)
    {
      StepKeepsSquares(SlopeX(f), SlopeY(f), epsilon, rho, delta, sqrt, s);
    }
    Trajectory.TraceOrFailKeeps(step, Start(st), st.iteration, inv);
    ReportEntries(f, trace, st);
    assert RunRmsprop(st, epsilon, rho, delta, sqrt) == Success(Report(f, trace));
  }

  /** With a positive `epsilon`, each recorded update is zero or against the gradient at the point it starts from. */
  lemma MovesAgainstGradient(st: State, epsilon: real, rho: real, delta: real, sqrt: real -> real)
    requires RunRmsprop(st, epsilon, rho, delta, sqrt).Success? && epsilon > 0.0 && SqrtLike(sqrt)
    ensures var f := Lookup(st.testFunction).value;
      var h := RunRmsprop(st, epsilon, rho, delta, sqrt).value;
      forall i :: 1 <= i <= st.iteration ==>
        && Opposes(h.deltaXHistory[i].value, Gx(f, h.steps.xHistory[i - 1], h.steps.yHistory[i - 1]))
        && Opposes(h.deltaYHistory[i].value, Gy(f, h.steps.xHistory[i - 1], h.steps.yHistory[i - 1]))
  {
    var f := Lookup(st.testFunction).value;
    var step := StepOf(f, epsilon, rho, delta, sqrt);
    var trace := Trace(f, epsilon, rho, delta, sqrt, st).value;
    forall s | step(s).Success?
      ensures Descends(SlopeX(f), SlopeY(f), s, step(s).value)
    {
      StepDescends(SlopeX(f), SlopeY(f), epsilon, rho, delta, sqrt, s);
    }
    Trajectory.TraceOrFailRelates(step, Start(st), st.iteration, (s, n) => Descends(SlopeX(f), SlopeY(f), s, n));
    ReportDescends(f, trace, st, SlopeX(f), SlopeY(f));
    assert RunRmsprop(st, epsilon, rho, delta, sqrt) == Success(Report(f, trace));
  }

  /** Without `delta`, a start at a point of zero x-gradient divides by `sqrt(0 + 0)`. */
  lemma StallsWithoutDelta(st: State, epsilon: real, rho: real, sqrt: real -> real)
    requires st.iteration >= 1 && Lookup(st.testFunction).Some? && SqrtLike(sqrt)
    requires Gx(Lookup(st.testFunction).value, st.xInitial, st.yInitial) == 0.0
    ensures RunRmsprop(st, epsilon, rho, 0.0, sqrt) == Failure(ZeroDivisionError)
  {
    var f := Lookup(st.testFunction).value;
    StepStalls(SlopeX(f), SlopeY(f), epsilon, rho, 0.0, sqrt, Start(st));
    Trajectory.TraceOrFailFirstStep(StepOf(f, epsilon, rho, 0.0, sqrt), Start(st), st.iteration);
  }

  /** A negative `delta` at a start of zero x-gradient takes the square root of a negative number. */
  lemma NegativeDeltaRaises(st: State, epsilon: real, rho: real, delta: real, sqrt: real -> real)
    requires st.iteration >= 1 && Lookup(st.testFunction).Some? && delta < 0.0
    requires Gx(Lookup(st.testFunction).value, st.xInitial, st.yInitial) == 0.0
    ensures RunRmsprop(st, epsilon, rho, delta, sqrt) == Failure(ValueError)
  {
    var f := Lookup(st.testFunction).value;
    StepStalls(SlopeX(f), SlopeY(f), epsilon, rho, delta, sqrt, Start(st));
    Trajectory.TraceOrFailFirstStep(StepOf(f, epsilon, rho, delta, sqrt), Start(st), st.iteration);
  }

  /** From a fresh accumulator at a point of zero x-gradient, the x-divisor is `sqrt(delta)`. */
  lemma StepStalls(gx: Slope, gy: Slope, epsilon: real, rho: real, delta: real, sqrt: real -> real, s: Accumulated)
    requires s.rx == 0.0 && gx(s.x, s.y) == 0.0 && delta <= 0.0
    requires delta == 0.0 ==> SqrtLike(sqrt)
    ensures delta == 0.0 ==> Step(gx, gy, epsilon, rho, delta, sqrt, s) == Failure(ZeroDivisionError)
    ensures delta < 0.0 ==> Step(gx, gy, epsilon, rho, delta, sqrt, s) == Failure(ValueError)
  {
    assert Blend(rho, s.rx, 1.0 - rho, gx(s.x, s.y)) == 0.0;
    if delta == 0.0 {
      assert sqrt(0.0) == 0.0;
    }
  }
}

=== FILE: sgd.dfy ===
/**
  * `SGDOneVariable` of `optimizers/sgd.py`, and its copy in `spaces/twoD.py`: gradient descent
  * on the parabola `theta * theta`, whose derivative `2 * theta` is written into the update.
  */
module Sgd {
  import opened Numeric

  /** The descent object: its current `theta`, learning rate and the series of inputs it carries. */
  datatype Descent = Descent(theta: real, learningRate: real, xSeries: seq<real>)

  /** The `iters` dictionary: the inputs and the recorded values of `theta`. */
  datatype Iters = Iters(inputs: seq<real>, thetaVals: seq<real>)

  /** How many times `range(steps)` runs. */
  function Count(steps: int): nat
  {
    if steps < 0 then 0 else steps
  }

  /** `n` passes of `theta = theta - lr * theta`. */
  function Shrink(theta: real, lr: real, n: nat): real
    decreases n
  {
    if n == 0 then theta else Shrink(theta - lr * theta, lr, n - 1)
  }

  /** `n` passes shrink `theta` by the factor `1 - lr` each. */
  lemma {:induction false} ShrinkClosed(theta: real, lr: real, n: nat)
    ensures Shrink(theta, lr, n) == theta * Pow(1.0 - lr, n)
    decreases n
  {
    if n > 0 {
      ShrinkClosed(theta - lr * theta, lr, n - 1);
      assert (theta - lr * theta) * Pow(1.0 - lr, n - 1) == theta * ((1.0 - lr) * Pow(1.0 - lr, n - 1));
    }
  }

  /**
    * `converge(steps)`: the value of `theta` after `steps` passes of the factor `1 - lr` (not the
    * `1 - 2 * lr` of `store_iterations`), which is also left in the object.
    */
  function Converge(d: Descent, steps: int): (r: (real, Descent))
    ensures r.0 == d.theta * Pow(1.0 - d.learningRate, Count(steps))
    ensures r.1 == d.(theta := r.0)
  {
    ShrinkClosed(d.theta, d.learningRate, Count(steps));
    var theta := Shrink(d.theta, d.learningRate, Count(steps));
    (theta, d.(theta := theta))
  }

  /** The loop of `converge`, as the source writes it. */
  method ConvergeLoop(d: Descent, steps: int) returns (theta: real, e: Descent)
    ensures (theta, e) == Converge(d, steps)
  {
    theta := d.theta;
    var i := 0;
    while i < steps
      invariant 0 <= i <= Count(steps)
      invariant Shrink(theta, d.learningRate, Count(steps) - i) == Shrink(d.theta, d.learningRate, Count(steps))
    {
      theta := theta - d.learningRate * theta;
      i := i + 1;
    }
    e := d.(theta := theta);
  }

  /** One update of `store_iterations`: `theta - lr * (2 * theta)`. */
  function Next(theta: real, lr: real): real
  {
    theta - lr * (2.0 * theta)
  }

  /** The value a pass starts from: `theta` for the first, the previous recorded value after. */
  function Prev(vals: seq<real>, theta: real, k: int): real
    requires 0 <= k <= |vals|
  {
    if k == 0 then theta else vals[k - 1]
  }

  /**
    * The values recorded by `n` updates from `theta`; `theta` itself is not among them, and each
    * is one update of the value before it.
    */
  function Values(theta: real, lr: real, n: nat): (r: seq<real>)
    ensures |r| == n
    ensures forall k {:trigger Prev(r, theta, k)} :: 0 <= k < n ==> r[k] == Next(Prev(r, theta, k), lr)
    decreases n
  {
    if n == 0 then []
    else
      var next := Next(theta, lr);
      var rest := Values(next, lr, n - 1);
      var r := [next] + rest;
      assert forall k :: 1 <= k < n ==> r[k] == rest[k - 1] && Prev(r, theta, k) == Prev(rest, next, k - 1);
      r
  }

  /** The value of `theta` after `n` updates. */
  function Final(theta: real, lr: real, n: nat): real
  {
    if n == 0 then theta else Values(theta, lr, n)[n - 1]
  }

  /** The k-th recorded value is `theta * (1 - 2 * lr)^(k + 1)`. */
  lemma ValuesClosed(theta: real, lr: real, n: nat)
    ensures forall k :: 0 <= k < n ==> Values(theta, lr, n)[k] == theta * Pow(1.0 - 2.0 * lr, k + 1)
  {
    forall k | 0 <= k < n
      ensures Values(theta, lr, n)[k] == theta * Pow(1.0 - 2.0 * lr, k + 1)
    {
      ValueAt(theta, lr, n, k);
    }
  }

  /** One recorded value in closed form, by induction on its position. */
  lemma {:induction false} ValueAt(theta: real, lr: real, n: nat, k: nat)
    requires k < n
    ensures Values(theta, lr, n)[k] == theta * Pow(1.0 - 2.0 * lr, k + 1)
    decreases k
  {
    var vals := Values(theta, lr, n);
    var c := 1.0 - 2.0 * lr;
    var prev := Prev(vals, theta, k);
    assert vals[k] == Next(prev, lr) == prev * c;
    assert Pow(c, k + 1) == c * Pow(c, k);
    if k == 0 {
      assert Pow(c, 0) == 1.0;
    } else {
      ValueAt(theta, lr, n, k - 1);
      assert prev == theta * Pow(c, k);
      assert prev * c == theta * (c * Pow(c, k));
    }
  }

  /** `n + m` updates record the values of `n` updates, then those of `m` more from where they ended. */
  lemma {:induction false} ValuesAppend(theta: real, lr: real, n: nat, m: nat)
    ensures Values(theta, lr, n + m) == Values(theta, lr, n) + Values(Final(theta, lr, n), lr, m)
    ensures Final(theta, lr, n + m) == Final(Final(theta, lr, n), lr, m)
    decreases n
  {
    if n > 0 {
      var next := Next(theta, lr);
      ValuesAppend(next, lr, n - 1, m);
      assert Final(theta, lr, n) == Final(next, lr, n - 1) by {
        if n > 1 {
          assert Values(theta, lr, n)[n - 1] == Values(next, lr, n - 1)[n - 2];
        }
      }
      if m > 0 {
        assert Values(theta, lr, n + m)[n + m - 1] == Values(next, lr, n - 1 + m)[n + m - 2];
      } else {
        assert Values(Final(theta, lr, n), lr, 0) == [];
      }
    }
  }

  /**
    * `store_iterations(steps)`: one recorded value per update, the k-th being
    * `theta * (1 - 2 * lr)^(k + 1)`; the object keeps the last of them, or its `theta` when
    * there was no update.
    */
  function StoreIterations(d: Descent, steps: int): (r: (Iters, Descent))
    ensures r.0.inputs == d.xSeries
    ensures |r.0.thetaVals| == Count(steps)
    ensures forall k :: 0 <= k < Count(steps) ==> r.0.thetaVals[k] == d.theta * Pow(1.0 - 2.0 * d.learningRate, k + 1)
    ensures r.1 == d.(theta := if Count(steps) == 0 then d.theta else r.0.thetaVals[Count(steps) - 1])
  {
    ValuesClosed(d.theta, d.learningRate, Count(steps));
    var vals := Values(d.theta, d.learningRate, Count(steps));
    (Iters(d.xSeries, vals), d.(theta := Final(d.theta, d.learningRate, Count(steps))))
  }

  /** The loop of `store_iterations`, appending one value per pass. */
  method StoreIterationsLoop(d: Descent, steps: int) returns (iters: Iters, e: Descent)
    ensures (iters, e) == StoreIterations(d, steps)
  {
    var theta := d.theta;
    var thetaVals := [];
    var i := 0;
    while i < steps
      invariant 0 <= i <= Count(steps)
      invariant thetaVals == Values(d.theta, d.learningRate, i)
      invariant theta == Final(d.theta, d.learningRate, i)
    {
      ValuesAppend(d.theta, d.learningRate, i, 1);
      assert Values(theta, d.learningRate, 1) == [Next(theta, d.learningRate)];
      var before := theta;
      var dx := 2.0 * theta;
      theta := theta - d.learningRate * dx;
      thetaVals := thetaVals + [theta];
      assert theta == Next(before, d.learningRate);
      assert thetaVals == Values(d.theta, d.learningRate, i + 1);
      i := i + 1;
    }
    iters := Iters(d.xSeries, thetaVals);
    e := d.(theta := theta);
  }

  /** A second call continues from the value the first one left: together they record one longer run. */
  lemma ContinuesFromLast(d: Descent, n: nat, m: nat)
    ensures StoreIterations(d, n).0.thetaVals + StoreIterations(StoreIterations(d, n).1, m).0.thetaVals
            == StoreIterations(d, n + m).0.thetaVals
    ensures StoreIterations(StoreIterations(d, n).1, m).1 == StoreIterations(d, n + m).1
  {
    ValuesAppend(d.theta, d.learningRate, n, m);
  }

  /** With a zero learning rate every recorded value is the initial `theta`, and `theta` is unchanged. */
  lemma ZeroLearningRate(d: Descent, steps: int)
    requires d.learningRate == 0.0
    ensures forall k :: 0 <= k < Count(steps) ==> StoreIterations(d, steps).0.thetaVals[k] == d.theta
    ensures StoreIterations(d, steps).1 == d
    ensures Converge(d, steps) == (d.theta, d)
  {
    PowOfOne(Count(steps));
    forall k | 0 <= k < Count(steps)
      ensures StoreIterations(d, steps).0.thetaVals[k] == d.theta
    {
      PowOfOne(k + 1);
    }
    assert Converge(d, steps).0 == d.theta * 1.0;
    assert d.(theta := d.theta) == d;
  }

  /** With `0 <= lr <= 1` the magnitude of `theta` never grows from one recorded value to the next. */
  lemma MagnitudeNonIncreasing(d: Descent, steps: int)
    requires 0.0 <= d.learningRate <= 1.0
    ensures var vals := StoreIterations(d, steps).0.thetaVals;
      && (|vals| > 0 ==> Abs(vals[0]) <= Abs(d.theta))
      && forall k :: 0 <= k < |vals| - 1 ==> Abs(vals[k + 1]) <= Abs(vals[k])
  {
    var lr := d.learningRate;
    var vals := StoreIterations(d, steps).0.thetaVals;
    if |vals| > 0 {
      assert vals == Values(d.theta, lr, Count(steps));
      assert Prev(vals, d.theta, 0) == d.theta;
      NextShrinks(d.theta, lr);
    }
    forall k | 0 <= k < |vals| - 1
      ensures Abs(vals[k + 1]) <= Abs(vals[k])
    {
      assert vals == Values(d.theta, lr, Count(steps));
      assert Prev(vals, d.theta, k + 1) == vals[k];
      NextShrinks(vals[k], lr);
    }
  }

  /** One update with `0 <= lr <= 1` multiplies `theta` by `1 - 2 * lr`, a factor of magnitude at most 1. */
  lemma NextShrinks(theta: real, lr: real)
    requires 0.0 <= lr <= 1.0
    ensures Next(theta, lr) == theta * Pow(1.0 - 2.0 * lr, 1)
    ensures Abs(Next(theta, lr)) <= Abs(theta)
  {
    var c := 1.0 - 2.0 * lr;
    assert Next(theta, lr) == theta * c;
    if theta >= 0.0 {
      assert -theta <= theta * c <= theta;
    } else {
      assert theta <= theta * c <= -theta;
    }
  }
}

=== FILE: surfaces.dfy ===
/** The closed-form test surfaces of `Surface`: height and gradient of four named functions of (x, y). */
module Surfaces {
  import opened Wrappers
  import opened Numeric

  /** The surface names `Surface` has formulas for. */
  datatype TestFunction = Himmelblau | Parabolic | Matyas | Saddle

  function Name(f: TestFunction): string
  {
    match f
    case Himmelblau => "himmelblau"
    case Parabolic => "parabolic"
    case Matyas => "matyas"
    case Saddle => "saddle"
  }

  /** The surface a `test_function` string selects; `None` when no branch of the formulas matches. */
  function Lookup(name: string): (r: Option<TestFunction>)
    ensures r.Some? ==> Name(r.value) == name
    ensures r.None? ==> forall f: TestFunction :: Name(f) != name
  {
    if name == "himmelblau" then Some(Himmelblau)
    else if name == "parabolic" then Some(Parabolic)
    else if name == "matyas" then Some(Matyas)
    else if name == "saddle" then Some(Saddle)
    else None
  }

  lemma LookupName(f: TestFunction)
    ensures Lookup(Name(f)) == Some(f)
  {
  }

  /** `a ** 2` and `a ** 3` are the products they abbreviate. */
  lemma SmallPowers(a: real)
    ensures Pow(a, 2) == a * a && Pow(a, 3) == a * a * a
  {
    assert Pow(a, 1) == a;
  }

  /** The height `get_z_at(x, y)`. */
  function Z(f: TestFunction, x: real, y: real): real
  {
    match f
    case Himmelblau => Pow(Pow(x, 2) + y - 11.0, 2) + Pow(x + Pow(y, 2) - 7.0, 2)
    case Parabolic => Pow(x, 2) + Pow(y, 2)
    case Matyas => 0.26 * (Pow(x, 2) + Pow(y, 2)) - 0.48 * x * y
    case Saddle => Pow(x, 2) - Pow(y, 2)
  }

  /** The x-gradient `get_gx_at(x, y)`, as the formulas state it (the Himmelblau line lacks two terms). */
  function Gx(f: TestFunction, x: real, y: real): real
  {
    match f
    case Himmelblau => 4.0 * Pow(x, 3) - 4.0 * x * y - 42.0 * x + 4.0 * x * y - 14.0
    case Parabolic => 2.0 * x
    case Matyas => 2.0 * 0.26 * x - 0.48 * y
    case Saddle => 2.0 * x
  }

  /** The y-gradient `get_gy_at(x, y)`. */
  function Gy(f: TestFunction, x: real, y: real): real
  {
    match f
    case Himmelblau => 4.0 * Pow(y, 3) + 2.0 * Pow(x, 2) - 26.0 * y + 4.0 * x * y - 22.0
    case Parabolic => 2.0 * y
    case Matyas => 2.0 * 0.26 * y - 0.48 * x
    case Saddle => -2.0 * y
  }

  /** A gradient component as a function of the point. */
  type Slope = (real, real) -> real

  function SlopeX(f: TestFunction): Slope
  {
    (x, y) => Gx(f, x, y)
  }

  function SlopeY(f: TestFunction): Slope
  {
    (x, y) => Gy(f, x, y)
  }

  /** `get_z_at` on a surface name: a height for the four known names, `None` for any other. */
  function ZAt(name: string, x: real, y: real): (r: Option<real>)
    ensures r.None? <==> forall f: TestFunction :: Name(f) != name
    ensures forall f: TestFunction :: Name(f) == name ==> r == Some(Z(f, x, y))
  {
    match Lookup(name)
    case None => None
    case Some(f) => Some(Z(f, x, y))
  }

  /** `get_gx_at` on a surface name. */
  function GxAt(name: string, x: real, y: real): (r: Option<real>)
    ensures r.None? <==> forall f: TestFunction :: Name(f) != name
    ensures forall f: TestFunction :: Name(f) == name ==> r == Some(Gx(f, x, y))
  {
    match Lookup(name)
    case None => None
    case Some(f) => Some(Gx(f, x, y))
  }

  /** `get_gy_at` on a surface name. */
  function GyAt(name: string, x: real, y: real): (r: Option<real>)
    ensures r.None? <==> forall f: TestFunction :: Name(f) != name
    ensures forall f: TestFunction :: Name(f) == name ==> r == Some(Gy(f, x, y))
  {
    match Lookup(name)
    case None => None
    case Some(f) => Some(Gy(f, x, y))
  }

  /** The coefficient of h*h in Z(x + h, y) - Z(x, y) on the three quadratic surfaces. */
  function CurvatureX(f: TestFunction): real
    requires f != Himmelblau
  {
    match f
    case Parabolic => 1.0
    case Matyas => 0.26
    case Saddle => 1.0
  }

  /** The coefficient of h*h in Z(x, y + h) - Z(x, y) on the three quadratic surfaces. */
  function CurvatureY(f: TestFunction): real
    requires f != Himmelblau
  {
    match f
    case Parabolic => 1.0
    case Matyas => 0.26
    case Saddle => -1.0
  }

  /**
    * Except on Himmelblau, `Gx` is the partial derivative of `Z` in x: along x the surface
    * is the linear term `h * Gx` plus a remainder of order h*h, which fixes `Gx` uniquely.
    */
  lemma PartialX(f: TestFunction, x: real, y: real, h: real)
    requires f != Himmelblau
    ensures Z(f, x + h, y) == Z(f, x, y) + h * Gx(f, x, y) + h * h * CurvatureX(f)
  {
    SmallPowers(x);
    SmallPowers(y);
    SmallPowers(x + h);
  }

  /** Except on Himmelblau, `Gy` is the partial derivative of `Z` in y, in the same sense. */
  lemma PartialY(f: TestFunction, x: real, y: real, h: real)
    requires f != Himmelblau
    ensures Z(f, x, y + h) == Z(f, x, y) + h * Gy(f, x, y) + h * h * CurvatureY(f)
  {
    SmallPowers(x);
    SmallPowers(y);
    SmallPowers(y + h);
  }

  /**
    * Himmelblau is (x^2 + y - 11)^2 + (x + y^2 - 7)^2, whose chain-rule derivatives are
    * 4x(x^2 + y - 11) + 2(x + y^2 - 7) in x and 2(x^2 + y - 11) + 4y(x + y^2 - 7) in y.
    * The y-gradient formula is that derivative; the x-gradient formula falls short of
    * it by 4xy + 2y^2, since its two xy terms cancel.
    */
  lemma HimmelblauGradients(x: real, y: real)
    ensures Gx(Himmelblau, x, y)
         == 4.0 * x * (Pow(x, 2) + y - 11.0) + 2.0 * (x + Pow(y, 2) - 7.0) - (4.0 * x * y + 2.0 * y * y)
    ensures Gy(Himmelblau, x, y) == 2.0 * (Pow(x, 2) + y - 11.0) + 4.0 * y * (x + Pow(y, 2) - 7.0)
  {
    SmallPowers(x);
    SmallPowers(y);
  }

  /**
    * On Himmelblau, too, `Gy` is the partial derivative of `Z` in y: moving by h in y changes
    * the height by `h * Gy` plus terms of order h*h and higher.
    */
  lemma HimmelblauPartialY(x: real, y: real, h: real)
    ensures Z(Himmelblau, x, y + h)
         == Z(Himmelblau, x, y) + h * Gy(Himmelblau, x, y)
          + h * h * (1.0 + 2.0 * (x + Pow(y, 2) - 7.0) + 4.0 * y * y) + h * h * h * (4.0 * y) + h * h * h * h
  {
    HimmelblauGradients(x, y);
    ExpandPowersY(x, y, h, Gy(Himmelblau, x, y));
  }

  /**
    * The same expansion in x: the linear coefficient `g` of the height along x is the
    * chain-rule derivative, which is `Gx + 4xy + 2y^2`. So the x-gradient formula is not the
    * partial derivative of the height, wherever `4xy + 2y^2` is not zero.
    */
  lemma HimmelblauPartialX(x: real, y: real, h: real, g: real)
    requires g == Gx(Himmelblau, x, y) + 4.0 * x * y + 2.0 * y * y
    ensures Z(Himmelblau, x + h, y) == Z(Himmelblau, x, y) + h * g + (h * h * (1.0 + 2.0 * (Pow(x, 2) + y - 11.0) + 4.0 * x * x) + h * h * h * (4.0 * x) + h * h * h * h)
  {
    assert g == 4.0 * x * (Pow(x, 2) + y - 11.0) + 2.0 * (x + Pow(y, 2) - 7.0) by {
      HimmelblauGradients(x, y);
    }
    ExpandPowersX(x, y, h, g);
  }

  /** The expansion of `HimmelblauPartialX` on the two squares of the height, `g` being their x-derivative. */
  lemma ExpandPowersX(x: real, y: real, h: real, g: real)
    requires g == 4.0 * x * (Pow(x, 2) + y - 11.0) + 2.0 * (x + Pow(y, 2) - 7.0)
    ensures Pow(Pow(x + h, 2) + y - 11.0, 2) + Pow(x + h + Pow(y, 2) - 7.0, 2)
         == Pow(Pow(x, 2) + y - 11.0, 2) + Pow(x + Pow(y, 2) - 7.0, 2) + h * g + (h * h * (1.0 + 2.0 * (Pow(x, 2) + y - 11.0) + 4.0 * x * x) + h * h * h * (4.0 * x) + h * h * h * h)
  {
    var a, b := Pow(x, 2) + y - 11.0, x + Pow(y, 2) - 7.0;
    var k := h * (2.0 * x + h);
    SquareShift(x, x + h, h);
    SquareShift(a, Pow(x + h, 2) + y - 11.0, k);
    SquareShift(b, x + h + Pow(y, 2) - 7.0, h);
    Collect(b, a, x, h, k, g);
  }

  /** The expansion of `HimmelblauPartialY` on the two squares of the height, `g` being the y-gradient. */
  lemma ExpandPowersY(x: real, y: real, h: real, g: real)
    requires g == 2.0 * (Pow(x, 2) + y - 11.0) + 4.0 * y * (x + Pow(y, 2) - 7.0)
    ensures Pow(Pow(x, 2) + (y + h) - 11.0, 2) + Pow(x + Pow(y + h, 2) - 7.0, 2)
         == Pow(Pow(x, 2) + y - 11.0, 2) + Pow(x + Pow(y, 2) - 7.0, 2) + h * g
          + h * h * (1.0 + 2.0 * (x + Pow(y, 2) - 7.0) + 4.0 * y * y) + h * h * h * (4.0 * y) + h * h * h * h
  {
    var a, b := Pow(x, 2) + y - 11.0, x + Pow(y, 2) - 7.0;
    var k := h * (2.0 * y + h);
    SquareShift(y, y + h, h);
    SquareShift(a, Pow(x, 2) + (y + h) - 11.0, h);
    SquareShift(b, x + Pow(y + h, 2) - 7.0, k);
    Collect(a, b, y, h, k, g);
  }

  /** Shifting `a` by `d` to `c` grows its square by `d * (2a + d)`. */
  lemma SquareShift(a: real, c: real, d: real)
    requires c == a + d
    ensures Pow(c, 2) - Pow(a, 2) == d * (2.0 * a + d)
  {
    SmallPowers(a);
    SmallPowers(c);
  }

  /**
    * Two shifted squares summed: `a` moves by `h` and `b` by `k`, the change of the square of
    * the moving coordinate `y`, while `g` is `2a + 4yb`, the derivative of the two squares.
    */
  lemma Collect(a: real, b: real, y: real, h: real, k: real, g: real)
    requires k == h * (2.0 * y + h) && g == 2.0 * a + 4.0 * y * b
    ensures h * (2.0 * a + h) + k * (2.0 * b + k)
         == h * g + h * h * (1.0 + 2.0 * b + 4.0 * y * y) + h * h * h * (4.0 * y) + h * h * h * h
  {
  }

  /** The parabolic bowl is non-negative and has its one stationary point at the origin. */
  lemma ParabolicMinimum(x: real, y: real)
    ensures Z(Parabolic, x, y) >= 0.0 == Z(Parabolic, 0.0, 0.0)
    ensures Gx(Parabolic, x, y) == 0.0 && Gy(Parabolic, x, y) == 0.0 <==> x == 0.0 && y == 0.0
  {
    SmallPowers(x);
    SmallPowers(y);
    SmallPowers(0.0);
  }
}

=== FILE: trajectory.dfy ===
/**
  * The iteration bookkeeping every `run_*` method shares: the start state is entry 0 and
  * each iteration appends the state one update produces, for a fixed number of iterations.
  */
module Trajectory {
  import opened Exceptions
  import opened Wrappers

  /** The states visited by `n` updates from `init`, `init` included. */
  function Trace<S>(step: S -> S, init: S, n: nat): (r: seq<S>)
    ensures |r| == n + 1
    ensures r[0] == init
    ensures forall i :: 0 <= i < n ==> r[i + 1] == step(r[i])
  {
    if n == 0 then [init]
    else
      var prev := Trace(step, init, n - 1);
      prev + [step(prev[n - 1])]
  }

  /** As `Trace`, for an update that can raise: the run stops at the first update that does. */
  function TraceOrFail<S>(step: S -> Result<S>, init: S, n: nat): (r: Result<seq<S>>)
    ensures r.Success? ==> |r.value| == n + 1 && r.value[0] == init
    ensures r.Success? ==> forall i :: 0 <= i < n ==> step(r.value[i]) == Success(r.value[i + 1])
  {
    if n == 0 then Success([init])
    else
      var prev :- TraceOrFail(step, init, n - 1);
      var next :- step(prev[n - 1]);
      Success(prev + [next])
  }

  /** An update that leaves `init` where it is leaves the whole trajectory there. */
  lemma {:induction false} TraceAtFixedPoint<S>(step: S -> S, init: S, n: nat)
    requires step(init) == init
    ensures forall i :: 0 <= i <= n ==> Trace(step, init, n)[i] == init
  {
    if n > 0 {
      TraceAtFixedPoint(step, init, n - 1);
    }
  }

  /** Updates that agree on every state produce the same trajectory. */
  lemma {:induction false} TraceCongruent<S(!new)>(step: S -> S, step': S -> S, init: S, n: nat)
    requires forall s :: step(s) == step'(s)
    ensures Trace(step, init, n) == Trace(step', init, n)
  {
    if n > 0 {
      TraceCongruent(step, step', init, n - 1);
      var prev := Trace(step, init, n - 1);
      assert step(prev[n - 1]) == step'(prev[n - 1]);
    }
  }

  /** A property of the start state that every successful update keeps holds of every recorded state. */
  lemma {:induction false} TraceOrFailKeeps<S(!new)>(step: S -> Result<S>, init: S, n: nat, inv: S -> bool)
    requires inv(init)
    requires forall s :: inv(s) && step(s).Success? ==> inv(step(s).value)
    ensures TraceOrFail(step, init, n).Success? ==>
              forall i :: 0 <= i <= n ==> inv(TraceOrFail(step, init, n).value[i])
  {
    if n > 0 && TraceOrFail(step, init, n).Success? {
      TraceOrFailKeeps(step, init, n - 1, inv);
      var prev := TraceOrFail(step, init, n - 1).value;
      var r := TraceOrFail(step, init, n).value;
      assert r == prev + [step(prev[n - 1]).value];
      assert forall i :: 0 <= i < n ==> r[i] == prev[i];
    }
  }

  /** If every state with a property updates without raising to a state with it, the run raises nothing. */
  lemma {:induction false} TraceOrFailSucceeds<S(!new)>(step: S -> Result<S>, init: S, n: nat, inv: S -> bool)
    requires inv(init)
    requires forall s :: inv(s) ==> step(s).Success? && inv(step(s).value)
    ensures TraceOrFail(step, init, n).Success?
    ensures forall i :: 0 <= i <= n ==> inv(TraceOrFail(step, init, n).value[i])
  {
    if n > 0 {
      TraceOrFailSucceeds(step, init, n - 1, inv);
      var prev := TraceOrFail(step, init, n - 1).value;
      assert inv(prev[n - 1]);
      assert TraceOrFail(step, init, n) == Success(prev + [step(prev[n - 1]).value]);
    }
  }

  /**
    * If every state with a property either updates to a state with it or raises `e`,
    * a run that raises raises `e`.
    */
  lemma {:induction false} TraceOrFailRaisesOnly<S(!new)>(step: S -> Result<S>, init: S, n: nat, inv: S -> bool, e: Error)
    requires inv(init)
    requires forall s :: inv(s) ==> (step(s).Success? && inv(step(s).value)) || step(s) == Failure(e)
    ensures TraceOrFail(step, init, n).Failure? ==> TraceOrFail(step, init, n).error == e
  {
    if n > 0 {
      TraceOrFailRaisesOnly(step, init, n - 1, inv, e);
      if TraceOrFail(step, init, n - 1).Success? {
        TraceOrFailKeeps(step, init, n - 1, inv);
        var prev := TraceOrFail(step, init, n - 1).value;
        assert inv(prev[n - 1]);
      }
    }
  }

  /** A first update that raises makes every run of at least one update raise the same. */
  lemma {:induction false} TraceOrFailFirstStep<S>(step: S -> Result<S>, init: S, n: nat)
    requires n >= 1 && step(init).Failure?
    ensures TraceOrFail(step, init, n) == Failure(step(init).error)
  {
    if n > 1 {
      TraceOrFailFirstStep(step, init, n - 1);
    }
  }

  /** A relation every successful update establishes between a state and its successor holds along a run. */
  lemma TraceOrFailRelates<S(!new)>(step: S -> Result<S>, init: S, n: nat, rel: (S, S) -> bool)
    requires forall s :: step(s).Success? ==> rel(s, step(s).value)
    ensures TraceOrFail(step, init, n).Success? ==>
              forall i :: 0 <= i < n ==> rel(TraceOrFail(step, init, n).value[i], TraceOrFail(step, init, n).value[i + 1])
  {
    if TraceOrFail(step, init, n).Success? {
      var r := TraceOrFail(step, init, n).value;
      forall i | 0 <= i < n
        ensures rel(r[i], r[i + 1])
      {
        assert step(r[i]) == Success(r[i + 1]);
      }
    }
  }
}

=== FILE: two_d.dfy ===
/**
  * `SGDOneVariableLRDecay` of `spaces/twoD.py`: the one-variable descent of `Sgd` with a learning
  * rate that falls linearly from `lr` towards `epsilon_tau` over the first `tau` passes and then
  * stays where it stopped.
  */
module TwoD {
  import opened Exceptions
  import opened Wrappers
  import opened Numeric
  import opened Sgd

  /** The decaying descent: the plain descent, the pass `tau` where decay stops, and the target rate. */
  datatype LrDecay = LrDecay(base: Descent, tau: int, epsilonTau: real)

  /** The `tau` every constructed object carries, whatever was passed. */
  const FixedTau := 20

  /**
    * The constructor: the `tau` argument is ignored, and the target rate is `decay_ratio * lr`,
    * so a ratio in [0, 1] puts it between zero and a non-negative `lr`.
    */
  function NewLrDecay(theta: real, xSeries: seq<real>, tau: int, lr: real, decayRatio: real): (d: LrDecay)
    ensures d.base == Descent(theta, lr, xSeries)
    ensures d.tau == FixedTau
    ensures 0.0 <= decayRatio <= 1.0 && 0.0 <= lr ==> 0.0 <= d.epsilonTau <= d.base.learningRate
    ensures decayRatio == 1.0 ==> d.epsilonTau == d.base.learningRate
  {
    assert 0.0 <= decayRatio <= 1.0 && 0.0 <= lr ==> decayRatio * lr <= 1.0 * lr;
    LrDecay(Descent(theta, lr, xSeries), FixedTau, decayRatio * lr)
  }

  /** Two constructions that differ only in the `tau` argument build the same object. */
  lemma IgnoresTau(theta: real, xSeries: seq<real>, tau1: int, tau2: int, lr: real, decayRatio: real)
    ensures NewLrDecay(theta, xSeries, tau1, lr, decayRatio) == NewLrDecay(theta, xSeries, tau2, lr, decayRatio)
  {
  }

  // ---------------------------------------------------------------------------------------------
  // The schedule, as a closed reference
  // ---------------------------------------------------------------------------------------------

  /** The point a fraction `alpha` of the way from `lr` to `epsilon_tau`. */
  function Interpolate(lr: real, epsilonTau: real, alpha: real): real
  {
    (1.0 - alpha) * lr + alpha * epsilonTau
  }

  /** The linear schedule `(1 - k/tau) * lr + (k/tau) * epsilon_tau`. */
  function Linear(lr: real, epsilonTau: real, tau: int, k: int): real
    requires tau > 0
  {
    Interpolate(lr, epsilonTau, k as real / tau as real)
  }

  /** The rate in force on pass `k`: the linear schedule up to pass `tau - 1`, frozen there afterwards. */
  function Rate(lr: real, epsilonTau: real, tau: int, k: nat): real
    requires tau > 0
  {
    Linear(lr, epsilonTau, tau, if k < tau then k else tau - 1)
  }

  /** The first pass uses the initial rate. */
  lemma RateStartsAtLr(lr: real, epsilonTau: real, tau: int)
    requires tau > 0
    ensures Rate(lr, epsilonTau, tau, 0) == lr
  {
  }

  /**
    * From pass `tau - 1` on the rate is `epsilon_tau + (lr - epsilon_tau) / tau`: it never reaches
    * `epsilon_tau` unless the two rates were equal to begin with.
    */
  lemma RateFrozen(lr: real, epsilonTau: real, tau: int, k: nat)
    requires tau > 0 && k >= tau - 1
    ensures Rate(lr, epsilonTau, tau, k) == epsilonTau + (lr - epsilonTau) / tau as real
    ensures Rate(lr, epsilonTau, tau, k) == epsilonTau <==> lr == epsilonTau
  {
    var t := tau as real;
    var alpha := (tau - 1) as real / t;
    assert alpha == 1.0 - 1.0 / t;
    assert Rate(lr, epsilonTau, tau, k) == (1.0 / t) * lr + (1.0 - 1.0 / t) * epsilonTau;
    assert (1.0 / t) * lr + (1.0 - 1.0 / t) * epsilonTau == epsilonTau + (lr - epsilonTau) * (1.0 / t);
    assert (lr - epsilonTau) * (1.0 / t) == (lr - epsilonTau) / t;
  }

  /** Moving further from `lr` towards a smaller `epsilon_tau` never raises the rate, nor leaves the two. */
  lemma InterpolateMonotone(lr: real, epsilonTau: real, alpha: real, beta: real)
    requires epsilonTau <= lr && 0.0 <= alpha <= beta <= 1.0
    ensures epsilonTau <= Interpolate(lr, epsilonTau, beta) <= Interpolate(lr, epsilonTau, alpha) <= lr
  {
    var gap := lr - epsilonTau;
    assert Interpolate(lr, epsilonTau, alpha) == lr - alpha * gap;
    assert Interpolate(lr, epsilonTau, beta) == lr - beta * gap;
    assert 0.0 <= alpha * gap <= beta * gap <= gap;
  }

  /** The fraction of the way the schedule has gone by pass `k`: `min(k, tau - 1) / tau`, in [0, 1). */
  lemma FractionBounds(tau: int, k: nat)
    requires tau > 0
    ensures var alpha := (if k < tau then k else tau - 1) as real / tau as real;
      0.0 <= alpha < 1.0
  {
  }

  /** Going `alpha` of the way from `lr` to `epsilon_tau` is going `1 - alpha` of the way back. */
  lemma InterpolateSwap(lr: real, epsilonTau: real, alpha: real)
    ensures Interpolate(lr, epsilonTau, alpha) == Interpolate(epsilonTau, lr, 1.0 - alpha)
  {
  }

  /** Every rate lies between `epsilon_tau` and `lr`, whichever of the two is the larger. */
  lemma RateBetween(lr: real, epsilonTau: real, tau: int, k: nat)
    requires tau > 0
    ensures epsilonTau <= lr ==> epsilonTau <= Rate(lr, epsilonTau, tau, k) <= lr
    ensures lr <= epsilonTau ==> lr <= Rate(lr, epsilonTau, tau, k) <= epsilonTau
  {
    FractionBounds(tau, k);
    var alpha := (if k < tau then k else tau - 1) as real / tau as real;
    if epsilonTau <= lr {
      InterpolateMonotone(lr, epsilonTau, alpha, alpha);
    }
    if lr <= epsilonTau {
      InterpolateSwap(lr, epsilonTau, alpha);
      InterpolateMonotone(epsilonTau, lr, 1.0 - alpha, 1.0 - alpha);
    }
  }

  /** With `epsilon_tau <= lr` the rate never rises from one pass to a later one. */
  lemma RateNonIncreasing(lr: real, epsilonTau: real, tau: int, k: nat, j: nat)
    requires tau > 0 && epsilonTau <= lr && k <= j
    ensures Rate(lr, epsilonTau, tau, j) <= Rate(lr, epsilonTau, tau, k)
  {
    FractionBounds(tau, k);
    FractionBounds(tau, j);
    var t := tau as real;
    var a := (if k < tau then k else tau - 1) as real / t;
    var b := (if j < tau then j else tau - 1) as real / t;
    assert (if k < tau then k else tau - 1) as real <= (if j < tau then j else tau - 1) as real;
    assert a <= b;
    InterpolateMonotone(lr, epsilonTau, a, b);
  }

  /** With equal rates the schedule is the constant `lr`. */
  lemma RateConstant(lr: real, tau: int, k: nat)
    requires tau > 0
    ensures Rate(lr, lr, tau, k) == lr
  {
    var alpha := (if k < tau then k else tau - 1) as real / tau as real;
    assert (1.0 - alpha) * lr + alpha * lr == lr;
  }

  // ---------------------------------------------------------------------------------------------
  // `store_iterations`, pass by pass as the source runs it
  // ---------------------------------------------------------------------------------------------

  /**
    * Pass `k` of the loop from `theta`, with `lrd` the rate left by the previous pass (`None`
    * while unbound): `k / tau` is computed first, the rate is reassigned only while `k < tau`, and
    * the result is the rate used and the new `theta`.
    */
  function Pass(theta: real, lr: real, epsilonTau: real, tau: int, k: nat, lrd: Option<real>): Result<(real, real)>
  {
    var alpha :- Divide(k as real, tau as real);
    var rate := if k < tau then Some(Interpolate(lr, epsilonTau, alpha)) else lrd;
    if rate.None? then Failure(UnboundLocalError) else Success((rate.value, Next(theta, rate.value)))
  }

  /**
    * Passes `k` to `k + n - 1` from `theta`: the values of `theta` they record. They raise exactly
    * when there is a pass and either `tau` is zero (the division) or the first pass is at or past
    * `tau` with no rate assigned yet; every later pass has the rate of the one before it.
    */
  function Passes(theta: real, lr: real, epsilonTau: real, tau: int, k: nat, n: nat, lrd: Option<real>): (r: Result<seq<real>>)
    ensures r.Success? <==> n == 0 || (tau != 0 && (k < tau || lrd.Some?))
    ensures n > 0 && tau == 0 ==> r == Failure(ZeroDivisionError)
    ensures n > 0 && tau != 0 && k >= tau && lrd.None? ==> r == Failure(UnboundLocalError)
    ensures r.Success? ==> |r.value| == n
    decreases n
  {
    if n == 0 then Success([])
    else
      var p :- Pass(theta, lr, epsilonTau, tau, k, lrd);
      var rest :- Passes(p.1, lr, epsilonTau, tau, k + 1, n - 1, Some(p.0));
      Success([p.1] + rest)
  }

  /** With a positive `tau`, and the rate of pass `k - 1` in hand when `k > 0`, pass `k` uses the scheduled rate. */
  lemma PassRate(theta: real, lr: real, epsilonTau: real, tau: int, k: nat, lrd: Option<real>)
    requires tau > 0
    requires k > 0 ==> lrd == Some(Rate(lr, epsilonTau, tau, k - 1))
    ensures Pass(theta, lr, epsilonTau, tau, k, lrd)
            == Success((Rate(lr, epsilonTau, tau, k), Next(theta, Rate(lr, epsilonTau, tau, k))))
  {
    var alpha := k as real / tau as real;
    var rate := Rate(lr, epsilonTau, tau, k);
    assert Divide(k as real, tau as real) == Success(alpha);
    if k >= tau {
      assert Rate(lr, epsilonTau, tau, k - 1) == rate;
    }
  }

  /**
    * With a positive `tau`, and the rate of pass `k - 1` in hand when `k > 0`, the passes succeed
    * and each recorded value is one update of its predecessor at the scheduled rate.
    */
  lemma {:induction false} PassesFollowRate(theta: real, lr: real, epsilonTau: real, tau: int, k: nat, n: nat, lrd: Option<real>)
    requires tau > 0
    requires k > 0 ==> lrd == Some(Rate(lr, epsilonTau, tau, k - 1))
    ensures Passes(theta, lr, epsilonTau, tau, k, n, lrd).Success?
    ensures var vals := Passes(theta, lr, epsilonTau, tau, k, n, lrd).value;
      forall j :: 0 <= j < n ==> vals[j] == Next(Prev(vals, theta, j), Rate(lr, epsilonTau, tau, k + j))
    decreases n
  {
    if n > 0 {
      var rate := Rate(lr, epsilonTau, tau, k);
      PassRate(theta, lr, epsilonTau, tau, k, lrd);
      var next := Next(theta, rate);
      PassesFollowRate(next, lr, epsilonTau, tau, k + 1, n - 1, Some(rate));
      var rest := Passes(next, lr, epsilonTau, tau, k + 1, n - 1, Some(rate)).value;
      var vals := Passes(theta, lr, epsilonTau, tau, k, n, lrd).value;
      assert vals == [next] + rest;
      forall j | 0 <= j < n
        ensures vals[j] == Next(Prev(vals, theta, j), Rate(lr, epsilonTau, tau, k + j))
      {
        if j > 0 {
          assert vals[j] == rest[j - 1];
          assert Prev(vals, theta, j) == Prev(rest, next, j - 1);
          assert k + j == (k + 1) + (j - 1);
        }
      }
    }
  }

  /** A zero `tau` raises on the first pass, dividing `0 / 0`. */
  lemma ZeroTauRaises(theta: real, lr: real, epsilonTau: real, n: nat)
    requires n > 0
    ensures Passes(theta, lr, epsilonTau, 0, 0, n, None) == Failure(ZeroDivisionError)
  {
  }

  /** A negative `tau` never assigns the rate, and the first pass reads it unbound. */
  lemma NegativeTauRaises(theta: real, lr: real, epsilonTau: real, tau: int, n: nat)
    requires tau < 0 && n > 0
    ensures Passes(theta, lr, epsilonTau, tau, 0, n, None) == Failure(UnboundLocalError)
  {
  }

  /**
    * `store_iterations(steps)` of the decaying descent. With no pass, `iters` is read unbound; a zero
    * `tau` divides by zero and a negative one leaves the rate unbound; otherwise one value is
    * recorded per pass, each one update of the previous at the scheduled rate, and the object keeps
    * the last.
    */
  function DecayStoreIterations(d: LrDecay, steps: int): (r: Result<(Iters, LrDecay)>)
    ensures steps <= 0 ==> r == Failure(UnboundLocalError)
    ensures steps > 0 && d.tau == 0 ==> r == Failure(ZeroDivisionError)
    ensures steps > 0 && d.tau < 0 ==> r == Failure(UnboundLocalError)
    ensures steps > 0 && d.tau > 0 ==> r.Success?
    ensures r.Success? ==>
      var vals := r.value.0.thetaVals;
      && steps > 0 && d.tau > 0
      && r.value.0.inputs == d.base.xSeries
      && |vals| == steps
      && (forall k :: 0 <= k < steps ==>
            vals[k] == Next(Prev(vals, d.base.theta, k), Rate(d.base.learningRate, d.epsilonTau, d.tau, k)))
      && r.value.1 == d.(base := d.base.(theta := vals[steps - 1]))
  {
    if steps <= 0 then Failure(UnboundLocalError)
    else
      var lr := d.base.learningRate;
      if d.tau == 0 then
        ZeroTauRaises(d.base.theta, lr, d.epsilonTau, steps);
        Failure(ZeroDivisionError)
      else if d.tau < 0 then
        NegativeTauRaises(d.base.theta, lr, d.epsilonTau, d.tau, steps);
        Failure(UnboundLocalError)
      else
        PassesFollowRate(d.base.theta, lr, d.epsilonTau, d.tau, 0, steps, None);
        var vals := Passes(d.base.theta, lr, d.epsilonTau, d.tau, 0, steps, None).value;
        assert forall k :: 0 <= k < steps ==>
          vals[k] == Next(Prev(vals, d.base.theta, k), Rate(lr, d.epsilonTau, d.tau, 0 + k));
        Success((Iters(d.base.xSeries, vals), d.(base := d.base.(theta := vals[steps - 1]))))
  }

  /** Two sequences that follow the same one-step recurrence from the same start are equal. */
  lemma {:induction false} SameRecurrence(a: seq<real>, b: seq<real>, theta: real, lr: real)
    requires |a| == |b|
    requires forall k :: 0 <= k < |a| ==> a[k] == Next(Prev(a, theta, k), lr)
    requires forall k :: 0 <= k < |b| ==> b[k] == Next(Prev(b, theta, k), lr)
    ensures a == b
  {
    if |a| > 0 {
      var n := |a| - 1;
      var a', b' := a[..n], b[..n];
      forall k | 0 <= k < n
        ensures a'[k] == Next(Prev(a', theta, k), lr)
        ensures b'[k] == Next(Prev(b', theta, k), lr)
      {
        assert a'[k] == a[k] && b'[k] == b[k];
        if k > 0 {
          assert a'[k - 1] == a[k - 1] && b'[k - 1] == b[k - 1];
        }
      }
      SameRecurrence(a', b', theta, lr);
      if n > 0 {
        assert a[n - 1] == a'[n - 1] && b[n - 1] == b'[n - 1];
      }
      assert a[n] == b[n];
      assert a == a[..n] + [a[n]] && b == b[..n] + [b[n]];
    }
  }

  /**
    * When the target rate equals the initial one (`decay_ratio = 1`), the decaying descent records
    * exactly what the plain `store_iterations` records and ends in the same state.
    */
  lemma EqualRatesMatchPlain(d: LrDecay, steps: int)
    requires d.tau > 0 && steps > 0 && d.epsilonTau == d.base.learningRate
    ensures DecayStoreIterations(d, steps).Success?
    ensures DecayStoreIterations(d, steps).value.0 == StoreIterations(d.base, steps).0
    ensures DecayStoreIterations(d, steps).value.1.base == StoreIterations(d.base, steps).1
  {
    var lr := d.base.learningRate;
    var a := DecayStoreIterations(d, steps).value.0.thetaVals;
    var b := StoreIterations(d.base, steps).0.thetaVals;
    forall k | 0 <= k < steps
      ensures a[k] == Next(Prev(a, d.base.theta, k), lr)
    {
      RateConstant(lr, d.tau, k);
      assert a[k] == Next(Prev(a, d.base.theta, k), Rate(lr, d.epsilonTau, d.tau, k));
    }
    SameRecurrence(a, b, d.base.theta, lr);
  }

  /**
    * A freshly constructed object, run for `steps >= 1` passes, records one value per pass at the
    * rate of the schedule with `tau = 20` and `epsilon_tau = decay_ratio * lr`.
    */
  lemma ConstructedSchedule(theta: real, xSeries: seq<real>, tau: int, lr: real, decayRatio: real, steps: int)
    requires steps > 0
    ensures var d := NewLrDecay(theta, xSeries, tau, lr, decayRatio);
      var r := DecayStoreIterations(d, steps);
      && r.Success?
      && |r.value.0.thetaVals| == steps
      && r.value.0.thetaVals[0] == Next(theta, lr)
      && forall k :: 0 < k < steps ==>
           r.value.0.thetaVals[k] == Next(r.value.0.thetaVals[k - 1], Rate(lr, decayRatio * lr, FixedTau, k))
  {
    var d := NewLrDecay(theta, xSeries, tau, lr, decayRatio);
    RateStartsAtLr(lr, decayRatio * lr, FixedTau);
    var vals := DecayStoreIterations(d, steps).value.0.thetaVals;
    assert d.base.theta == theta && d.base.learningRate == lr && d.epsilonTau == decayRatio * lr;
    assert vals[0] == Next(d.base.theta, Rate(d.base.learningRate, d.epsilonTau, d.tau, 0));
  }
}

=== FILE: wrappers.dfy ===
/**
  * The two outcome types of the model: a value a surface formula may not have (`Option`), and a
  * computation that returns a value or raises one of the `Exceptions` (`Result`), which `:-`
  * propagates the way an exception leaves a Python loop.
  */
module Wrappers {
  import opened Exceptions

  /** A Python value or the `None` a function returns when it falls through every branch. */
  datatype Option<+T> = None | Some(value: T)

  /** A returned value, or the exception raised instead. */
  datatype Result<+T> = Success(value: T) | Failure(error: Error) {

    predicate IsFailure() {
      Failure?
    }

    function PropagateFailure<U>(): Result<U>
      requires Failure?
    {
      Failure(error)
    }

    function Extract(): T
      requires Success?
    {
      value
    }
  }
}
